=== FILE: README.md ===
# fetch-log, modelled in Dafny

fetch-log is a browser extension that captures the API traffic of the active tab
through the browser's debugger interface and shows it in a popup. This project models
its core:

- the background worker (`src/background.ts`) as a state machine. The request
  table and the active-tab reference are driven by tab notifications, debugger
  network events and popup messages.
- the pure helpers of `src/utils.ts`.
- two fragments of the popup: the URL filter and its count in
  `src/components/App.tsx`, and the settings toggle in
  `src/components/Settings.tsx`.

Layout:

| file | module | contents |
|---|---|---|
| `wrappers.dfy` | `Wrappers` | `Option` |
| `seqs.dfy` | `Seqs` | order-preserving `Filter` (`Array.prototype.filter`), `SubsequenceOf`, filter lemmas |
| `strings.dfy` | `Strings` | `includes`, `startsWith`, ASCII case mapping, `trim`, `split`/`join` on one character |
| `types.dfy` | `Types` | `NetworkRequest`, `ExtensionSettings` (`src/types.ts`) |
| `store.dfy` | `RequestStore` | the insertion-ordered table: `Get`, `Set`, clearing a tab, a tab's view |
| `capture.dfy` | `Capture` | admission and the three debugger-event handlers |
| `background.dfy` | `Background` | `State`, `Event`, the listeners, `Step`/`Run`, invariants, a full capture lifecycle |
| `utils.dfy` | `Utils` | status/method colours, `truncateUrl`, `tryParseJson`, copy formatting, `extractFunctionName` |
| `ui.dfy` | `Ui` | the popup's filter, count, default settings and toggle |

Modelling choices:

- **The table.** A JavaScript `Map` iterates in insertion order, and `set` on an
  existing key keeps the key's place. So the table is a sequence of `(id, record)`
  entries with distinct ids.
- **Host results and host calls.** Host results are event payloads: the fetched
  response body (`Option<string>`, None when the command fails), the stored refresh
  flag (`Option<bool>`), and the clicked or foreground tab. Attaching and detaching
  the debugger are emitted as `HostCall`s, so the decisions the listeners make
  about them are visible.
- **Truthiness of the active tab.** It is modelled exactly: `null` and `0` are falsy.
- **`handleLoadingFinished`.** The state machine takes it as one atomic step:
  lookup, then write-back. The write-back as the code performs it after its `await`
  is modelled separately, and its consequence is recorded under Findings.
- **A request without headers.** When the URL starts with "http" but lacks "/api/", reading
  `request.headers["Content-Type"]` throws inside the listener. Nothing is stored,
  exactly as for a rejected request.
- **Foreign library code.** `JSON.parse` and `JSON.stringify` are function
  parameters. The outcome of `new URL(url)` is an input `Option<UrlParts>`. Case
  mapping is ASCII-only.

Behaviour of the code worth knowing when reading the model:

- Admission tests only the URL and the two literal `Content-Type` spellings
  (src/background.ts:75-80); the HTTP method and the request's initiator play no part.
- `getRequests` only reads the table (src/background.ts:138-143); debugging starts
  only from the icon click, the tab-activation listener and startup.
- `getRequests` compares the tab with `===`, so tab 0's records are listed
  (src/background.ts:140), while `clearRequests` tests the active tab for truthiness
  and so treats tab 0 as no tab (src/background.ts:144-148).

## Model

| member | source | states |
|---|---|---|
| RequestStore.Get | src/background.ts:99 | `requests.get(id)` finds nothing exactly when `id` is not a key, and what it finds is the entry stored under `id` |
| RequestStore.Set | src/background.ts:93 | after `requests.set(id, x)` the key maps to `x` and every other key maps to what it did before. An existing key keeps its place; a new key goes last. Ids stay distinct |
| RequestStore.ClearTab | src/background.ts:127-133 | the cleared table holds exactly the entries of other tabs: every survivor is from the table and not of the tab, and every entry of another tab survives |
| RequestStore.ForTab | src/background.ts:139-141 | a tab's view holds exactly the table's records carrying that tab id |
| RequestStore.SetAbsent | src/background.ts:93 | `requests.set` of a key the table does not hold appends the entry at the end of the iteration order |
| RequestStore.Delete | src/background.ts:130 | after `requests.delete(id)` the key finds nothing and every other key finds what it did before |
| RequestStore.DeleteMissing | src/background.ts:130 | deleting a key that is not in the table leaves the table exactly as it was, order included |
| RequestStore.DeleteAppend | src/background.ts:130 | deleting a key from a table removes it from each part of the table independently, so the entries before and after it keep their order |
| RequestStore.ForTabSnoc | src/background.ts:139-141 | an entry appended to the table adds its record at the end of its own tab's view and changes no other tab's view |
| RequestStore.ClearRequestsForTab | src/background.ts:127-133 | the loop walks the live table, deleting the visited entry when it belongs to the tab (the next entry then slides under the cursor), and ends holding exactly the entries of other tabs in their original order. It relies on the ids being distinct, as a `Map`'s keys are |
| RequestStore.ClearTabKeepsOrder | src/background.ts:127-133 | the surviving entries keep their original relative order |
| RequestStore.ClearTabIdempotent | src/background.ts:127-133 | clearing the same tab twice equals clearing it once |
| RequestStore.ClearTabUnique | src/background.ts:127-133 | clearing keeps ids distinct |
| RequestStore.ClearTabGet | src/background.ts:127-133 | after a clear, a lookup of a record of that tab finds nothing, and every other lookup is unchanged |
| RequestStore.ClearTabIsolation | src/background.ts:127-133 | a clear empties that tab's view and leaves every other tab's view exactly as it was |
| Capture.OnRequestWillBeSent | src/background.ts:71-95 | a request that is not admitted leaves the table unchanged. An admitted one is stored under its id with its URL and method, `status` 0, its request headers (`{}` when absent), the timestamp times 1000, empty response headers, no response body, its posted data as request body, and the session's tab. Other keys are untouched. An existing id keeps its place |
| Capture.OnResponseReceived | src/background.ts:97-106 | an unknown id is a no-op. A known record changes only its status and response headers; url, method, tab and bodies are untouched, as are all other keys and the order |
| Capture.OnLoadingFinished | src/background.ts:108-125 | an unknown id or a failed body fetch is a no-op. Otherwise only `responseBody` of that record is set, and all other keys and the order are untouched |
| Capture.BodyArrivedAsWritten | src/background.ts:110-120 | the code's write-back stores the looked-up record object, as it stands at the write-back, with its body under the id, whatever the table holds at that moment |
| Capture.BodyArrivedMatchesAtomic | src/background.ts:108-125 | with nothing interleaved, the code's lookup-then-write-back equals the atomic handler |
| Capture.ClearedRecordReappears | src/background.ts:110-120 | for every table with distinct ids and every record of a tab: if the tab is cleared while the record's body is being fetched, the write-back appends the record to the cleared table and `getRequests` for that tab lists exactly that record, while the atomic handler leaves the cleared table unchanged |
| Capture.AdmissionIgnoresMethodAndBody | src/background.ts:75-80 | admission depends only on the URL and the headers, never on the method or the posted data |
| Capture.AdmitsApiPath | src/background.ts:76-77 | example: a GET of https://x.com/api/users with no headers is admitted |
| Capture.AdmitsJsonHeader | src/background.ts:79 | example: http://x.com/home, which lacks "/api/", is admitted when its `content-type` is "application/json; charset=utf-8" |
| Capture.RejectsPlainPage | src/background.ts:75-80 | example: https://x.com/home is rejected both as a GET with no headers and as a POST whose JSON type is given only under the upper-case `CONTENT-TYPE` |
| Capture.RejectsNonHttp | src/background.ts:76 | example: ws://x.com/api/socket is rejected although it contains "/api/" |
| Background.RequestsOfActiveTab | src/background.ts:139-141 | the answer holds exactly the table's records whose tab equals the active tab, as a subsequence of the table order |
| Background.OnIconClicked | src/background.ts:7-12 | a clicked tab with a truthy id becomes active and is attached. Otherwise nothing happens. The table is untouched. The startup listener (src/background.ts:154-161) is the same function applied to the foreground tab |
| Background.OnTabActivated | src/background.ts:15-21 | the new tab becomes active. The attach of the new tab is made exactly once, last, and is the only call unless a detach is due, in which case the detach comes first. The previous tab is detached exactly when it is truthy and differs from the new one. The table is untouched |
| Background.OnTabUpdated | src/background.ts:24-31 | a "loading" update of the active tab, unless the stored flag is exactly `false`, empties that tab's view and leaves every other tab's view as it was. Any other update changes nothing |
| Background.HandleNetworkEvent | src/background.ts:57-69 | dispatch by event name. An admitted `requestWillBeSent` stores the request under its id with status 0 and the listener's tab, whatever tab is active; a rejected one changes nothing. A `responseReceived` for a known id sets its status, and a `loadingFinished` for a known id with a fetched body sets its response body; both are no-ops for an unknown id. Only the event's own id changes, unknown events change nothing, no id is ever dropped, and ids stay distinct |
| Background.OnDebuggerEvent | src/background.ts:39-43 | an event from the listener's own tab is handled with that tab stamped on new records, and an event from any other tab is ignored. No reply and no host call are made |
| Background.OnMessage | src/background.ts:136-151 | `getRequests` answers with exactly the active tab's records in table order and changes nothing. `clearRequests` always answers success, empties the active tab's view when the tab is truthy and keeps every other tab's view as it was, and changes nothing otherwise. Any other action gets no answer and changes nothing |
| Background.ForTabIsActiveRequests | src/background.ts:139-141 | the `getRequests` answer is the active tab's view of the table |
| Background.StepKeepsValid | src/background.ts:3 | every event keeps the table well formed: ids distinct and each record stored under its own id |
| Background.RunKeepsValid | src/background.ts:3 | every sequence of events from a well-formed state keeps the table well formed |
| Background.OnlyClearsDropRecords | src/background.ts:128-131 | only a refresh update or `clearRequests` can remove an id from the table |
| Background.TabZeroIsNotCleared | src/background.ts:139-148 | in every state with tab 0 active, `clearRequests` changes nothing at all, while `getRequests` answers with tab 0's view of the table |
| Background.SingleRecordAnswer | src/background.ts:139-142 | a table holding one record of the active tab is answered with exactly that record |
| Background.CaptureLifecycle | src/background.ts:15-125 | for any admitted request: after activating its tab, its request, response and body events yield a `getRequests` answer of exactly one record combining all three |
| Utils.StatusColor | src/utils.ts:87-96 | the four classes partition the integers: [200,300) green, [300,400) yellow, 400 and above red, everything below 200 gray; each in both directions |
| Utils.MethodColor | src/utils.ts:70-84 | each of GET, POST, PUT, DELETE and PATCH, compared after upper-casing, has its own class exactly when it matches. Every other method is gray |
| Utils.MethodColorIgnoresCase | src/utils.ts:71 | a method, its upper-cased and its lower-cased form get the same class |
| Utils.TruncateUrl | src/utils.ts:98-104 | a URL that fits comes back unchanged. A longer one becomes its first ⌊maxLength/2⌋ characters, "...", and its last ⌈maxLength/2⌉ characters, `maxLength + 3` in all. A negative `maxLength` gives "..." |
| Utils.TruncateUrlDefault | src/utils.ts:98-104 | with the default `maxLength` of 50, a URL of at most 50 characters is shown whole and a longer one as its first 25 characters, "...", and its last 25 |
| Utils.TryParseJson | src/utils.ts:57-68 | the parser sees only the trimmed text, and only when it opens with "{" or "[". Every fallback, including a parse failure, returns the original untrimmed text |
| Utils.FormatBodyForCopy | src/utils.ts:27-55 | an absent or empty body gives "". A body that does not parse is returned verbatim. A parsed body is re-printed |
| Utils.FormatRequestForCopy | src/utils.ts:27-40 | no or empty request body gives "". A body that does not look like JSON, or that the parser rejects, is copied verbatim. A body that parses is the printer's rendering of the parsed value |
| Utils.FormatResponseForCopy | src/utils.ts:42-55 | no or empty response body gives "". A body that does not look like JSON, or that the parser rejects, is copied verbatim. A body that parses is the printer's rendering of the parsed value |
| Utils.UnparsableBodyCopiedVerbatim | src/utils.ts:34-39 | a body the parser rejects is copied verbatim, whatever the printer |
| Utils.CopiedJsonReparses | src/utils.ts:34-37 | the copied text of a JSON body parses back to the same value, given a printer whose output opens with "{" or "[", closes with "}" or "]", and parses back |
| Utils.PathSegments | src/utils.ts:112-114 | the segments are non-empty and contain no "/" |
| Utils.ExtractFunctionName | src/utils.ts:106-134 | a failed parse or a path without segments gives the URL itself and an empty name. Otherwise the name is the last segment: non-empty and slash-free |
| Utils.BaseUrl | src/utils.ts:124-127 | the base URL starts with origin + "/" and ends with "/" |
| Utils.BasePathThenLast | src/utils.ts:124-126 | the base path of all but the last segment, followed by the last segment, is "/" + all segments joined |
| Utils.SegmentsOfCanonicalPath | src/utils.ts:112-114 | splitting "/a/b/c" and dropping empty parts gives back exactly the segments |
| Utils.ExtractFunctionNameRoundTrip | src/utils.ts:106-134 | for a canonical path, the name is the last segment, and base URL followed by name is exactly protocol + "//" + host + path |
| Strings.TrimSpec | src/utils.ts:60 | `trim` keeps the slice that starts where the leading whitespace ends. It drops only whitespace from each end, leaves no whitespace at either end, and yields "" exactly when the text is all whitespace |
| Strings.JoinSplit | src/utils.ts:112 | `split` loses nothing: joining its parts with the separator gives back the text |
| Ui.FilterRequests | src/components/App.tsx:99-101 | a record is kept exactly when its lower-cased URL contains the lower-cased filter, and the kept records are a subsequence of the fetched ones in order |
| Ui.RequestCount | src/components/App.tsx:144 | the header count plus the number of hidden records is the number fetched. With an empty filter it is the number fetched |
| Ui.EmptyFilterKeepsAll | src/components/App.tsx:99-101 | an empty filter keeps every record in order |
| Ui.FilterIgnoresCase | src/components/App.tsx:100 | filters that agree after lower-casing select the same records |
| Ui.UpperCaseFilter | src/components/App.tsx:100 | typing the filter in capitals changes nothing |
| Ui.NarrowingFilter | src/components/App.tsx:99-101 | a record that passes a filter also passes every filter contained in it |
| Ui.DefaultSettings | src/components/App.tsx:15-19 | the popup starts with clear-on-refresh on, dark mode off and no saved filters |
| Ui.DefaultMatchesMissing | src/components/App.tsx:15-19 | the default refresh flag makes the refresh listener behave as when no flag is stored |
| Ui.ToggleSetting | src/components/Settings.tsx:17-24 | a boolean key is negated and every other field is carried over. Toggling `savedFilters` emits nothing |
| Ui.ToggleTwice | src/components/Settings.tsx:17-24 | toggling a boolean key twice restores the settings |
| Ui.TogglesCommute | src/components/Settings.tsx:17-24 | toggling two boolean keys in either order gives the same settings |

## Left out

- The `chrome.*` host primitives are not modelled as operations. Only attaching and detaching the debugger appear, as `HostCall` outputs. `sendCommand("Network.enable")` (src/background.ts:37), `Network.getResponseBody` (src/background.ts:114-118), `tabs.query` (src/background.ts:155) and `storage.local.get` (src/background.ts:27) are not emitted. Their results, where the code uses them, are event payloads: the fetched body, the foreground tab, the stored refresh flag.
- Host call failures are not modelled. A failed detach is ignored by the code (src/background.ts:50-55). A failed attach or `Network.enable` jumps to the `catch` before the `onEvent` listener is registered (src/background.ts:35-46), while `activeTabId` is already set (src/background.ts:9, 19), so that tab's traffic is never captured. The model does not tie `DebuggerEvent` deliveries to a successful attach, so it admits more event sequences than the code can produce.
- `startDebugging` adds a new `onEvent` listener on every call and never removes one. The model has one routing filter per delivery: the `DebuggerEvent` carries the listener's tab. Duplicate deliveries to several listeners are not modelled.
- Capture.BodyArrivedAsWritten: records are values here, while the code writes back the very object the table holds. A change made in place to that object during the `await`, such as `handleResponseReceived` setting `status` and `responseHeaders` (src/background.ts:102-103), is kept by the code's write-back. The member keeps it only when `captured` is passed as the object's state at the write-back; aliasing itself is not modelled.
- Interleavings across `await` other than the one in `handleLoadingFinished` are not modelled. That one is modelled by `Capture.BodyArrivedAsWritten`.
- `timestamp * 1000` is floating-point in the source. Here the timestamp is an integer and is multiplied exactly.
- Utils.TruncateUrl: lengths and `substring` indices count characters (code points), while JavaScript counts UTF-16 code units. For a URL with characters outside the Basic Multilingual Plane, such as "ab😀c" with `maxLength` 4, the source can split a surrogate pair and the model's result differs.
- `JSON.parse`/`JSON.stringify` and the `URL` constructor are foreign code and appear as parameters. `toLowerCase`/`toUpperCase` map only A-Z/a-z. Unicode case mapping is not modelled.
- Where settings are persisted is not connected to the refresh listener. The popup saves the whole settings object under "settings" (src/components/App.tsx:68-71). The listener reads a top-level "clearOnTabRefresh" key (src/background.ts:27), which nothing in these files writes. The listener's read is kept as the event payload `Option<bool>`.
- The popup sends a `startDebugging` message (src/components/App.tsx:84), and the worker has no case for it. In the model any unknown action gets no answer.
- `copyToClipboard` (src/utils.ts:3-25) is DOM and clipboard I/O.
- React rendering, `RequestList.tsx`, `RequestDetail.tsx`, `Header.tsx` and `vite.config.ts` are presentation and build configuration.

## Findings

| source | as written | input that shows it | evidently intended | confidence | as-written member | corrected member |
|---|---|---|---|---|---|---|
| src/background.ts:110-120 | `handleLoadingFinished` captures the record before awaiting the body, then calls `requests.set` with it unconditionally | record "1" of tab 7 is pending its body; the popup's `clearRequests` (or a refresh) clears tab 7; the body then arrives and "1" is back in the table and in tab 7's `getRequests` answer | a record removed while its body was in flight stays removed: a body for an id no longer in the table is dropped | medium; not executed | Capture.ClearedRecordReappears | Capture.OnLoadingFinished |

=== FILE: background.dfy ===
/** The background worker of src/background.ts as a state machine: the request
    table plus the active-tab reference, driven by the browser's notifications, the
    debugger's network events and the popup's messages. Host results (the stored
    refresh flag, the fetched response body, the clicked or foreground tab) are event
    payloads; attaching and detaching the debugger are emitted as host calls. */
module Background {
  import opened Wrappers
  import opened Types
  import opened RequestStore
  import opened Capture
  import Seqs

  /** `requests` and `activeTabId` (src/background.ts:3-4). */
  datatype State = State(store: Store, activeTab: Option<int>)

  /** The state when the worker starts: an empty table and no active tab. */
  const Initial := State([], None)

  /** JavaScript truthiness of `activeTabId`: `null` and `0` are falsy. */
  predicate Truthy(tab: Option<int>) {
    tab.Some? && tab.value != 0
  }

  /** The debugger operations the worker asks of the host (`startDebugging`, `stopDebugging`). */
  datatype HostCall = Attach(tabId: int) | Detach(tabId: int)

  /** What the worker sends back to the popup with `sendResponse`. */
  datatype Reply = RequestsReply(requests: seq<NetworkRequest>) | SuccessReply(success: bool)

  datatype Event =
    /** `chrome.action.onClicked`, with the clicked tab's `id`. */
    | IconClicked(clickedTab: Option<int>)
    /** `chrome.tabs.onActivated`. */
    | TabActivated(tabId: int)
    /** `chrome.tabs.onUpdated`, with `changeInfo.status` and the value stored under
        "clearOnTabRefresh" (None when nothing is stored). */
    | TabUpdated(tabId: int, status: Option<string>, storedClearOnRefresh: Option<bool>)
    /** A `chrome.debugger.onEvent` delivery: the event's `source.tabId` and the tab
        whose `startDebugging` registered the listener. */
    | DebuggerEvent(source: Option<int>, listenerTab: int, event: NetworkEvent)
    /** A `chrome.runtime.onMessage` request with its `action`. */
    | Message(action: string)
    /** `chrome.runtime.onStartup`, with the `id` of the foreground tab, if any. */
    | Startup(foregroundTab: Option<int>)

  /** The new state, the reply sent to the popup (if any) and the host calls made, in order. */
  datatype Outcome = Outcome(state: State, reply: Option<Reply>, calls: seq<HostCall>)

  /** Every stored record lives under its own id, and no id is stored twice. */
  ghost predicate Valid(s: State) {
    && UniqueIds(s.store)
    && forall k :: Get(s.store, k).Some? ==> Get(s.store, k).value.id == k
  }

  /** The records `getRequests` answers with: those of the active tab, in table order. */
  function RequestsOfActiveTab(s: State): (r: seq<NetworkRequest>)
    ensures forall x :: x in r <==> x in Values(s.store) && s.activeTab == Some(x.tabId)
    ensures Seqs.SubsequenceOf(r, Values(s.store))
  {
    var r := Seqs.Filter(Values(s.store), (x: NetworkRequest) => s.activeTab == Some(x.tabId));
    Seqs.FilterIsSubsequence(Values(s.store), (x: NetworkRequest) => s.activeTab == Some(x.tabId));
    r
  }

  /** The icon-click listener (src/background.ts:7-12): a clicked tab with a truthy
      id becomes the active tab and gets a debugger attached. The startup listener
      (src/background.ts:154-161) does the same with the foreground tab. */
  function OnIconClicked(s: State, clickedTab: Option<int>): (r: Outcome)
    ensures r.state.store == s.store && r.reply.None?
    ensures Truthy(clickedTab) ==> r.state.activeTab == clickedTab && r.calls == [Attach(clickedTab.value)]
    ensures !Truthy(clickedTab) ==> r.state == s && r.calls == []
  {
    if Truthy(clickedTab) then Outcome(s.(activeTab := clickedTab), None, [Attach(clickedTab.value)])
    else Outcome(s, None, [])
  }

  /** The tab-activation listener (src/background.ts:15-21): the previously active tab
      is detached only when it is truthy and different; the new tab always becomes
      active and is attached; the table is untouched. */
  function OnTabActivated(s: State, tabId: int): (r: Outcome)
    ensures r.state == State(s.store, Some(tabId)) && r.reply.None?
    ensures 1 <= |r.calls| <= 2 && r.calls[|r.calls| - 1] == Attach(tabId)
    ensures |r.calls| == if Truthy(s.activeTab) && s.activeTab.value != tabId then 2 else 1
    ensures forall t :: Attach(t) in r.calls <==> t == tabId
    ensures forall t :: Detach(t) in r.calls <==> Truthy(s.activeTab) && t == s.activeTab.value && t != tabId
  {
    var detach := if Truthy(s.activeTab) && s.activeTab.value != tabId then [Detach(s.activeTab.value)] else [];
    Outcome(State(s.store, Some(tabId)), None, detach + [Attach(tabId)])
  }

  /** The refresh policy (src/background.ts:24-31): a "loading" update of the active tab
      clears that tab's records unless the stored flag is exactly `false`. */
  predicate RefreshClears(s: State, tabId: int, status: Option<string>, stored: Option<bool>) {
    status == Some("loading") && s.activeTab == Some(tabId) && stored != Some(false)
  }

  /** The tab-update listener: either clears the refreshed tab's records or changes nothing. */
  function OnTabUpdated(s: State, tabId: int, status: Option<string>, stored: Option<bool>): (r: Outcome)
    ensures r.reply.None? && r.calls == [] && r.state.activeTab == s.activeTab
    ensures !RefreshClears(s, tabId, status, stored) ==> r.state == s
    ensures RefreshClears(s, tabId, status, stored) ==>
      && ForTab(r.state.store, tabId) == []
      && forall u :: u != tabId ==> ForTab(r.state.store, u) == ForTab(s.store, u)
  {
    if RefreshClears(s, tabId, status, stored) then
      ClearTabIsolationAll(s.store, tabId);
      Outcome(s.(store := ClearTab(s.store, tabId)), None, [])
    else
      Outcome(s, None, [])
  }

  /** Clearing a tab empties its view and leaves all other views as they were. */
  lemma ClearTabIsolationAll(st: Store, tab: int)
    ensures ForTab(ClearTab(st, tab), tab) == []
    ensures forall u :: u != tab ==> ForTab(ClearTab(st, tab), u) == ForTab(st, u)
  {
    ClearTabIsolation(st, tab, tab);
    forall u | u != tab
      ensures ForTab(ClearTab(st, tab), u) == ForTab(st, u)
    {
      ClearTabIsolation(st, tab, u);
    }
  }

  /** `handleNetworkEvent` (src/background.ts:57-69) on the table, for events of `tab`:
      dispatch by event name. A stored request is stamped with `tab`, the tab the
      listener was registered for, whatever tab is active. */
  function HandleNetworkEvent(st: Store, tab: int, e: NetworkEvent): (r: Store)
    ensures UniqueIds(st) ==> UniqueIds(r)
    ensures forall k :: k in Ids(st) ==> k in Ids(r)
    ensures e.OtherEvent? ==> r == st
    ensures !e.OtherEvent? ==> forall k :: k != e.requestId ==> Get(r, k) == Get(st, k)
    ensures e.RequestWillBeSent? && !Admits(e.request) ==> r == st
    ensures e.RequestWillBeSent? && Admits(e.request) ==>
      && Get(r, e.requestId).Some?
      && Get(r, e.requestId).value.tabId == tab
      && Get(r, e.requestId).value.url == e.request.url
      && Get(r, e.requestId).value.status == 0
    ensures e.ResponseReceived? && Get(st, e.requestId).Some? ==>
      && Get(r, e.requestId).Some?
      && Get(r, e.requestId).value.status == e.response.status
    ensures e.LoadingFinished? && Get(st, e.requestId).Some? && e.fetchedBody.Some? ==>
      && Get(r, e.requestId).Some?
      && Get(r, e.requestId).value.responseBody == e.fetchedBody
    ensures (e.ResponseReceived? || e.LoadingFinished?) && Get(st, e.requestId).None? ==> r == st
  {
    match e
    case RequestWillBeSent(id, req, ts) => OnRequestWillBeSent(st, tab, id, req, ts)
    case ResponseReceived(id, resp) => OnResponseReceived(st, id, resp)
    case LoadingFinished(id, body) => OnLoadingFinished(st, id, body)
    case OtherEvent(_) => st
  }

  /** The listener registered by `startDebugging` (src/background.ts:39-43): events
      from any tab other than the listener's own are ignored. */
  function OnDebuggerEvent(s: State, source: Option<int>, listenerTab: int, e: NetworkEvent): (r: Outcome)
    ensures r.reply.None? && r.calls == [] && r.state.activeTab == s.activeTab
    ensures source != Some(listenerTab) ==> r.state == s
    ensures source == Some(listenerTab) ==> r.state.store == HandleNetworkEvent(s.store, listenerTab, e)
    ensures UniqueIds(s.store) ==> UniqueIds(r.state.store)
    ensures forall k :: k in Ids(s.store) ==> k in Ids(r.state.store)
  {
    if source == Some(listenerTab) then
      Outcome(s.(store := HandleNetworkEvent(s.store, listenerTab, e)), None, [])
    else
      Outcome(s, None, [])
  }

  /** The message listener (src/background.ts:136-151). "getRequests" answers with the
      active tab's records in table order; "clearRequests" always answers success and
      clears only when the active tab is truthy; any other action gets no answer. */
  function OnMessage(s: State, action: string): (r: Outcome)
    ensures r.calls == [] && r.state.activeTab == s.activeTab
    ensures action == "getRequests" ==>
      && r.state == s
      && r.reply.Some? && r.reply.value.RequestsReply?
      && (forall x :: x in r.reply.value.requests <==> x in Values(s.store) && s.activeTab == Some(x.tabId))
      && Seqs.SubsequenceOf(r.reply.value.requests, Values(s.store))
    ensures action == "clearRequests" ==>
      && r.reply == Some(SuccessReply(true))
      && (Truthy(s.activeTab) ==> RequestsOfActiveTab(r.state) == [])
      && (Truthy(s.activeTab) ==>
            forall u :: u != s.activeTab.value ==> ForTab(r.state.store, u) == ForTab(s.store, u))
      && (!Truthy(s.activeTab) ==> r.state == s)
    ensures action != "getRequests" && action != "clearRequests" ==> r == Outcome(s, None, [])
  {
    match action
    case "getRequests" => Outcome(s, Some(RequestsReply(RequestsOfActiveTab(s))), [])
    case "clearRequests" =>
      if Truthy(s.activeTab) then
        var cleared := s.(store := ClearTab(s.store, s.activeTab.value));
        ClearTabIsolationAll(s.store, s.activeTab.value);
        ForTabIsActiveRequests(cleared);
        Outcome(cleared, Some(SuccessReply(true)), [])
      else
        Outcome(s, Some(SuccessReply(true)), [])
    case _ => Outcome(s, None, [])
  }

  /** With an active tab, the `getRequests` answer is that tab's view of the table. */
  lemma ForTabIsActiveRequests(s: State)
    requires s.activeTab.Some?
    ensures RequestsOfActiveTab(s) == ForTab(s.store, s.activeTab.value)
  {
    Seqs.FilterCongruent(Values(s.store),
      (x: NetworkRequest) => s.activeTab == Some(x.tabId),
      (x: NetworkRequest) => x.tabId == s.activeTab.value);
  }

  /** One event processed to completion. */
  function Step(s: State, e: Event): Outcome {
    match e
    case IconClicked(t) => OnIconClicked(s, t)
    case TabActivated(t) => OnTabActivated(s, t)
    case TabUpdated(t, status, stored) => OnTabUpdated(s, t, status, stored)
    case DebuggerEvent(source, listener, ne) => OnDebuggerEvent(s, source, listener, ne)
    case Message(action) => OnMessage(s, action)
    case Startup(t) => OnIconClicked(s, t)
  }

  /** The states after each event of `events`, starting from `s`. */
  function Run(s: State, events: seq<Event>): State
    decreases |events|
  {
    if events == [] then s else Run(Step(s, events[0]).state, events[1..])
  }

  /** Clearing a tab keeps every record under its own id. */
  lemma ClearTabKeepsValid(st: Store, tab: int)
    requires UniqueIds(st)
    requires forall k :: Get(st, k).Some? ==> Get(st, k).value.id == k
    ensures UniqueIds(ClearTab(st, tab))
    ensures forall k :: Get(ClearTab(st, tab), k).Some? ==> Get(ClearTab(st, tab), k).value.id == k
  {
    ClearTabUnique(st, tab);
    forall k | Get(ClearTab(st, tab), k).Some?
      ensures Get(ClearTab(st, tab), k).value.id == k
    {
      ClearTabGet(st, tab, k);
    }
  }

  /** Every event keeps the table well formed. */
  lemma StepKeepsValid(s: State, e: Event)
    requires Valid(s)
    ensures Valid(Step(s, e).state)
  {
    match e
    case TabUpdated(t, status, stored) =>
      if RefreshClears(s, t, status, stored) {
        ClearTabKeepsValid(s.store, t);
      }
    case Message(action) =>
      if action == "clearRequests" && Truthy(s.activeTab) {
        ClearTabKeepsValid(s.store, s.activeTab.value);
      }
    case DebuggerEvent(source, listener, ne) =>
      if source == Some(listener) && ne.RequestWillBeSent? && Admits(ne.request) {
        var r := Step(s, e).state.store;
        assert Get(r, ne.requestId).value.id == ne.requestId;
      }
    case _ =>
  }

  /** Every run from a well-formed state ends in a well-formed state. */
  lemma {:induction false} RunKeepsValid(s: State, events: seq<Event>)
    requires Valid(s)
    ensures Valid(Run(s, events))
    decreases |events|
  {
    if events != [] {
      StepKeepsValid(s, events[0]);
      RunKeepsValid(Step(s, events[0]).state, events[1..]);
    }
  }

  /** Records leave the table only through a clear: debugger events, tab switches,
      icon clicks and startup never drop an id. */
  lemma OnlyClearsDropRecords(s: State, e: Event)
    requires !e.TabUpdated? && e != Message("clearRequests")
    ensures forall k :: k in Ids(s.store) ==> k in Ids(Step(s, e).state.store)
  {
  }

  /** `clearRequests` treats tab 0 as "no active tab", while `getRequests` compares
      with `===` and still lists tab 0's records. */
  lemma TabZeroIsNotCleared(s: State)
    requires s.activeTab == Some(0)
    ensures OnMessage(s, "clearRequests").state == s
    ensures OnMessage(s, "getRequests").reply == Some(RequestsReply(ForTab(s.store, 0)))
  {
    ForTabIsActiveRequests(s);
  }

  /** A table holding one record of the active tab answers `getRequests` with exactly
      that record. */
  lemma SingleRecordAnswer(s: State, rec: NetworkRequest)
    requires s.store == [Entry(rec.id, rec)] && s.activeTab == Some(rec.tabId)
    ensures OnMessage(s, "getRequests").reply == Some(RequestsReply([rec]))
  {
    var answer := RequestsOfActiveTab(s);
    assert Values(s.store) == [rec];
    assert rec in answer;
    assert |answer| == 1 && answer[0] in answer;
    assert answer == [rec];
    assert OnMessage(s, "getRequests").reply == Some(RequestsReply(answer));
  }

  /** Four events in a row are four steps in a row. */
  lemma RunFour(s: State, e0: Event, e1: Event, e2: Event, e3: Event)
    ensures Run(s, [e0, e1, e2, e3]) == Step(Step(Step(Step(s, e0).state, e1).state, e2).state, e3).state
  {
    var events := [e0, e1, e2, e3];
    var s1 := Step(s, e0).state;
    var s2 := Step(s1, e1).state;
    var s3 := Step(s2, e2).state;
    assert events[1..] == [e1, e2, e3] && [e1, e2, e3][1..] == [e2, e3] && [e2, e3][1..] == [e3];
    assert Run(s3, [e3]) == Run(Step(s3, e3).state, []);
    assert Run(s2, [e2, e3]) == Run(s3, [e3]);
    assert Run(s1, [e1, e2, e3]) == Run(s2, [e2, e3]);
  }

  /** An admitted request on an empty table becomes the table's only record. */
  lemma FirstRequestStored(s: State, tab: int, id: string, req: RequestInfo, ts: int)
    requires s.store == [] && Admits(req)
    ensures Step(s, DebuggerEvent(Some(tab), tab, RequestWillBeSent(id, req, ts))).state
         == s.(store := [Entry(id, NewRecord(id, req, ts, tab))])
  {
  }

  /** A response for the only record updates it in place. */
  lemma ResponseOnSingleRecord(s: State, rec: NetworkRequest, resp: ResponseInfo)
    requires s.store == [Entry(rec.id, rec)]
    ensures Step(s, DebuggerEvent(Some(rec.tabId), rec.tabId, ResponseReceived(rec.id, resp))).state
         == s.(store := [Entry(rec.id, rec.(status := resp.status, responseHeaders := resp.headers.GetOr(map[])))])
  {
    assert Get(s.store, rec.id) == Some(rec);
  }

  /** A fetched body for the only record is stored in it. */
  lemma BodyOnSingleRecord(s: State, rec: NetworkRequest, body: string)
    requires s.store == [Entry(rec.id, rec)]
    ensures Step(s, DebuggerEvent(Some(rec.tabId), rec.tabId, LoadingFinished(rec.id, Some(body)))).state
         == s.(store := [Entry(rec.id, rec.(responseBody := Some(body)))])
  {
    assert Get(s.store, rec.id) == Some(rec);
  }

  /** The life of one captured exchange: after switching to a tab, an admitted request
      from it, its response and its body, `getRequests` answers with one record that
      holds all three. */
  lemma CaptureLifecycle(tab: int, id: string, req: RequestInfo, ts: int, resp: ResponseInfo, body: string)
    requires Admits(req)
    ensures
      var events := [
        TabActivated(tab),
        DebuggerEvent(Some(tab), tab, RequestWillBeSent(id, req, ts)),
        DebuggerEvent(Some(tab), tab, ResponseReceived(id, resp)),
        DebuggerEvent(Some(tab), tab, LoadingFinished(id, Some(body)))
      ];
      OnMessage(Run(Initial, events), "getRequests").reply == Some(RequestsReply([
        NetworkRequest(id, req.url, req.httpMethod, resp.status, ts * 1000,
          req.headers.GetOr(map[]), resp.headers.GetOr(map[]), req.postedData, Some(body), tab)]))
  {
    var e0 := TabActivated(tab);
    var e1 := DebuggerEvent(Some(tab), tab, RequestWillBeSent(id, req, ts));
    var e2 := DebuggerEvent(Some(tab), tab, ResponseReceived(id, resp));
    var e3 := DebuggerEvent(Some(tab), tab, LoadingFinished(id, Some(body)));
    RunFour(Initial, e0, e1, e2, e3);
    var s0 := Step(Initial, e0).state;
    assert s0 == State([], Some(tab));
    var rec1 := NewRecord(id, req, ts, tab);
    FirstRequestStored(s0, tab, id, req, ts);
    var s1 := State([Entry(id, rec1)], Some(tab));
    ResponseOnSingleRecord(s1, rec1, resp);
    var rec2 := rec1.(status := resp.status, responseHeaders := resp.headers.GetOr(map[]));
    var s2 := State([Entry(id, rec2)], Some(tab));
    BodyOnSingleRecord(s2, rec2, body);
    var rec3 := rec2.(responseBody := Some(body));
    SingleRecordAnswer(State([Entry(id, rec3)], Some(tab)), rec3);
  }
}

=== FILE: capture.dfy ===
/** The debugger-event handlers of the background worker (src/background.ts:57-125):
    the admission filter, the insertion of new records, and the two in-place
    updates keyed by request id. Host results arrive as payloads. */
module Capture {
  import opened Wrappers
  import opened Types
  import opened Strings
  import opened RequestStore

  /** The `request` object of `Network.requestWillBeSent`. `headers` is None when
      the object has no headers; `postedData` is `request.postData?.data`. */
  datatype RequestInfo = RequestInfo(
    url: string,
    httpMethod: string,
    headers: Option<Headers>,
    postedData: Option<string>
  )

  /** The `response` object of `Network.responseReceived`. */
  datatype ResponseInfo = ResponseInfo(status: int, headers: Option<Headers>)

  /** A debugger event, by its `method` name. `LoadingFinished` carries the outcome
      of the `Network.getResponseBody` command it triggers: the body, or None when
      the command failed. */
  datatype NetworkEvent =
    | RequestWillBeSent(requestId: string, request: RequestInfo, timestamp: int)
    | ResponseReceived(requestId: string, response: ResponseInfo)
    | LoadingFinished(requestId: string, fetchedBody: Option<string>)
    | OtherEvent(name: string)

  /** `headers[name]?.includes("application/json")`. */
  predicate DeclaresJson(h: Headers, name: string) {
    name in h && Contains(h[name], "application/json")
  }

  /** Whether `handleRequestWillBeSent` stores the request (src/background.ts:75-80).
      Only the two spellings "Content-Type" and "content-type" are consulted. When the
      request has no headers object and its URL starts with "http" but lacks "/api/",
      reading the header throws inside the listener and nothing is stored, exactly as for a rejection. */
  predicate Admits(req: RequestInfo) {
    && StartsWith(req.url, "http")
    && (|| Contains(req.url, "/api/")
        || (req.headers.Some? && DeclaresJson(req.headers.value, "Content-Type"))
        || (req.headers.Some? && DeclaresJson(req.headers.value, "content-type")))
  }

  /** The record built for an admitted request (src/background.ts:81-91). */
  function NewRecord(requestId: string, req: RequestInfo, timestamp: int, tab: int): NetworkRequest {
    NetworkRequest(
      id := requestId,
      url := req.url,
      httpMethod := req.httpMethod,
      status := 0,
      timestamp := timestamp * 1000,
      requestHeaders := req.headers.GetOr(map[]),
      responseHeaders := map[],
      requestBody := req.postedData,
      responseBody := None,
      tabId := tab
    )
  }

  /** `handleRequestWillBeSent`: admitted requests are stored under their id as a
      fresh pending record; a known id is overwritten in place; nothing else moves. */
  function OnRequestWillBeSent(st: Store, tab: int, requestId: string, req: RequestInfo, timestamp: int): (r: Store)
    ensures !Admits(req) ==> r == st
    ensures Admits(req) ==>
      && Get(r, requestId).Some?
      && var x := Get(r, requestId).value;
      && x.id == requestId && x.url == req.url && x.httpMethod == req.httpMethod
      && x.status == 0 && x.responseHeaders == map[] && x.responseBody.None?
      && x.requestBody == req.postedData && x.tabId == tab
      && x.requestHeaders == req.headers.GetOr(map[]) && x.timestamp == timestamp * 1000
    ensures forall k :: k != requestId ==> Get(r, k) == Get(st, k)
    ensures Ids(r) == if requestId in Ids(st) || !Admits(req) then Ids(st) else Ids(st) + [requestId]
    ensures UniqueIds(st) ==> UniqueIds(r)
  {
    if Admits(req) then Set(st, requestId, NewRecord(requestId, req, timestamp, tab)) else st
  }

  /** `handleResponseReceived`: records the status and response headers of a known
      request and changes nothing else; an unknown id is ignored. */
  function OnResponseReceived(st: Store, requestId: string, resp: ResponseInfo): (r: Store)
    ensures Get(st, requestId).None? ==> r == st
    ensures Get(st, requestId).Some? ==>
      && Get(r, requestId).Some?
      && var before := Get(st, requestId).value;
      && var after := Get(r, requestId).value;
      && after.status == resp.status
      && after.responseHeaders == resp.headers.GetOr(map[])
      && after == before.(status := after.status, responseHeaders := after.responseHeaders)
    ensures forall k :: k != requestId ==> Get(r, k) == Get(st, k)
    ensures Ids(r) == Ids(st)
    ensures UniqueIds(st) ==> UniqueIds(r)
  {
    match Get(st, requestId)
    case None => st
    case Some(x) =>
      Set(st, requestId, x.(status := resp.status, responseHeaders := resp.headers.GetOr(map[])))
  }

  /** `handleLoadingFinished`, with the lookup and the write-back taken as one step:
      a known request gains the fetched body; an unknown id or a failed fetch leaves
      the table as it was. */
  function OnLoadingFinished(st: Store, requestId: string, fetchedBody: Option<string>): (r: Store)
    ensures Get(st, requestId).None? || fetchedBody.None? ==> r == st
    ensures Get(st, requestId).Some? && fetchedBody.Some? ==>
      Get(r, requestId) == Some(Get(st, requestId).value.(responseBody := fetchedBody))
    ensures forall k :: k != requestId ==> Get(r, k) == Get(st, k)
    ensures Ids(r) == Ids(st)
    ensures UniqueIds(st) ==> UniqueIds(r)
  {
    match (Get(st, requestId), fetchedBody)
    case (Some(x), Some(body)) => Set(st, requestId, x.(responseBody := Some(body)))
    case _ => st
  }

  /** The write-back of `handleLoadingFinished` as the code performs it: the record
      object looked up before the `await` is stored again with its body, whatever
      became of the table meanwhile (src/background.ts:119-120). `captured` is that
      object's state at the write-back: records are values here, so an in-place change
      made to the shared object during the `await` must already be part of it. */
  function BodyArrivedAsWritten(st: Store, requestId: string, captured: NetworkRequest, body: string): (r: Store)
    ensures Get(r, requestId) == Some(captured.(responseBody := Some(body)))
    ensures forall k :: k != requestId ==> Get(r, k) == Get(st, k)
  {
    Set(st, requestId, captured.(responseBody := Some(body)))
  }

  /** With nothing interleaved between the lookup and the write-back, the code's
      two-step handling is the atomic `OnLoadingFinished`. */
  lemma BodyArrivedMatchesAtomic(st: Store, requestId: string, body: string)
    requires Get(st, requestId).Some?
    ensures BodyArrivedAsWritten(st, requestId, Get(st, requestId).value, body)
         == OnLoadingFinished(st, requestId, Some(body))
  {
  }

  /** If the record's tab is cleared while its body is being fetched, the atomic
      handler finds nothing and leaves the cleared table alone, but the code's
      write-back appends the record again, where `getRequests` for the tab shows it as
      the tab's only record. */
  lemma ClearedRecordReappears(st: Store, tab: int, id: string, captured: NetworkRequest, body: string)
    requires UniqueIds(st) && Get(st, id) == Some(captured) && captured.tabId == tab
    ensures Get(ClearTab(st, tab), id).None?
    ensures OnLoadingFinished(ClearTab(st, tab), id, Some(body)) == ClearTab(st, tab)
    ensures BodyArrivedAsWritten(ClearTab(st, tab), id, captured, body)
         == ClearTab(st, tab) + [Entry(id, captured.(responseBody := Some(body)))]
    ensures ForTab(BodyArrivedAsWritten(ClearTab(st, tab), id, captured, body), tab)
         == [captured.(responseBody := Some(body))]
  {
    var cleared := ClearTab(st, tab);
    var back := captured.(responseBody := Some(body));
    ClearTabGet(st, tab, id);
    SetAbsent(cleared, id, back);
    ClearTabIsolation(st, tab, tab);
    ForTabSnoc(cleared, Entry(id, back), tab);
  }

  /** Admission looks at the URL and the headers only: neither the HTTP method nor the
      posted data changes the decision. */
  lemma AdmissionIgnoresMethodAndBody(req: RequestInfo, httpMethod: string, postedData: Option<string>)
    ensures Admits(req.(httpMethod := httpMethod, postedData := postedData)) == Admits(req)
  {
  }

  /** Example: an "/api/" URL is admitted without any header. */
  lemma AdmitsApiPath()
    ensures Admits(RequestInfo("https://x.com/api/users", "GET", Some(map[]), None))
  {
    assert OccursAt("https://x.com/api/users", "/api/", 13);
  }

  /** Example: a JSON content type under the lower-case name admits a URL without
      "/api/". */
  lemma AdmitsJsonHeader()
    ensures Admits(RequestInfo("http://x.com/home", "GET", Some(map["content-type" := "application/json; charset=utf-8"]), None))
  {
    assert OccursAt("application/json; charset=utf-8", "application/json", 0);
  }

  /** Example: a URL without the marker is rejected, even when posting JSON under a
      header spelling other than the two consulted ones. */
  lemma RejectsPlainPage()
    ensures !Admits(RequestInfo("https://x.com/home", "GET", Some(map[]), None))
    ensures !Admits(RequestInfo("https://x.com/home", "POST", Some(map["CONTENT-TYPE" := "application/json"]), Some("{}")))
  {
    MissingCharNotContained("https://x.com/home", "/api/", 1);
  }

  /** Example: a non-http URL is rejected although its path has the marker. */
  lemma RejectsNonHttp()
    ensures !Admits(RequestInfo("ws://x.com/api/socket", "GET", Some(map[]), None))
  {
    assert "ws://x.com/api/socket"[..4][0] == 'w';
  }
}

=== FILE: seqs.dfy ===
/** Order-preserving filtering of sequences, the model of JavaScript's
    `Array.prototype.filter` and of deleting matching entries from a `Map`. */
module Seqs {

  /** `a` can be obtained from `b` by deleting elements (order is kept). */
  predicate SubsequenceOf<T(==)>(a: seq<T>, b: seq<T>)
    decreases |b|
  {
    if a == [] then true
    else if b == [] then false
    else (a[0] == b[0] && SubsequenceOf(a[1..], b[1..])) || SubsequenceOf(a, b[1..])
  }

  /** Keeps, in order, exactly the elements of `s` that satisfy `p`. */
  function Filter<T>(s: seq<T>, p: T -> bool): (r: seq<T>)
    ensures |r| <= |s|
    ensures forall i :: 0 <= i < |r| ==> r[i] in s && p(r[i])
    ensures forall i :: 0 <= i < |s| && p(s[i]) ==> s[i] in r
    decreases |s|
  {
    if s == [] then []
    else if p(s[0]) then [s[0]] + Filter(s[1..], p)
    else Filter(s[1..], p)
  }

  /** Dropping the head of the longer sequence keeps a subsequence relation. */
  lemma SubsequenceOfTail<T>(a: seq<T>, x: T, b: seq<T>)
    requires SubsequenceOf(a, b)
    ensures SubsequenceOf(a, [x] + b)
  {
    assert ([x] + b)[1..] == b;
  }

  /** Filtering yields an order-preserving subsequence of its input. */
  lemma {:induction false} FilterIsSubsequence<T>(s: seq<T>, p: T -> bool)
    ensures SubsequenceOf(Filter(s, p), s)
    decreases |s|
  {
    if s != [] {
      FilterIsSubsequence(s[1..], p);
      if p(s[0]) {
        assert Filter(s, p)[1..] == Filter(s[1..], p);
      } else {
        SubsequenceOfTail(Filter(s[1..], p), s[0], s[1..]);
        assert [s[0]] + s[1..] == s;
      }
    }
  }

  /** Filtering twice with the same predicate is filtering once. */
  lemma {:induction false} FilterIdempotent<T>(s: seq<T>, p: T -> bool)
    ensures Filter(Filter(s, p), p) == Filter(s, p)
    decreases |s|
  {
    if s != [] {
      FilterIdempotent(s[1..], p);
      if p(s[0]) {
        assert ([s[0]] + Filter(s[1..], p))[1..] == Filter(s[1..], p);
      }
    }
  }

  /** A predicate every element satisfies keeps the whole sequence. */
  lemma {:induction false} FilterAll<T>(s: seq<T>, p: T -> bool)
    requires forall i :: 0 <= i < |s| ==> p(s[i])
    ensures Filter(s, p) == s
    decreases |s|
  {
    if s != [] {
      FilterAll(s[1..], p);
      assert [s[0]] + s[1..] == s;
    }
  }

  /** Filtering distributes over concatenation; with a one-element right-hand
      side this is the step of a left-to-right loop. */
  lemma {:induction false} FilterAppend<T>(s: seq<T>, t: seq<T>, p: T -> bool)
    ensures Filter(s + t, p) == Filter(s, p) + Filter(t, p)
    decreases |s|
  {
    if s == [] {
      assert s + t == t;
    } else {
      assert (s + t)[1..] == s[1..] + t;
      FilterAppend(s[1..], t, p);
    }
  }

  /** Position `i` splits `s` into what lies before it, `s[i]`, and what lies after. */
  lemma SliceStep<T>(s: seq<T>, i: int)
    requires 0 <= i < |s|
    ensures s[..i + 1] == s[..i] + [s[i]]
    ensures s[i..] == [s[i]] + s[i + 1..]
  {
  }

  /** The step of a left-to-right loop: one more element is kept exactly when it
      passes. */
  lemma FilterSnoc<T>(s: seq<T>, x: T, p: T -> bool)
    ensures Filter(s + [x], p) == if p(x) then Filter(s, p) + [x] else Filter(s, p)
  {
    FilterAppend(s, [x], p);
    assert [x][1..] == [];
  }

  /** Two predicates that agree on every element of `s` filter it identically. */
  lemma {:induction false} FilterCongruent<T>(s: seq<T>, p: T -> bool, q: T -> bool)
    requires forall i :: 0 <= i < |s| ==> p(s[i]) == q(s[i])
    ensures Filter(s, p) == Filter(s, q)
    decreases |s|
  {
    if s != [] {
      FilterCongruent(s[1..], p, q);
    }
  }

  /** Filtering by `q` after `p` is filtering by `q` alone when `q` implies `p`. */
  lemma {:induction false} FilterAbsorb<T>(s: seq<T>, p: T -> bool, q: T -> bool)
    requires forall i :: 0 <= i < |s| && q(s[i]) ==> p(s[i])
    ensures Filter(Filter(s, p), q) == Filter(s, q)
    decreases |s|
  {
    if s != [] {
      FilterAbsorb(s[1..], p, q);
    }
  }

  /** Nothing passes two predicates that no element satisfies together. */
  lemma {:induction false} FilterExclusive<T>(s: seq<T>, p: T -> bool, q: T -> bool)
    requires forall i :: 0 <= i < |s| ==> !(p(s[i]) && q(s[i]))
    ensures Filter(Filter(s, p), q) == []
    decreases |s|
  {
    if s != [] {
      FilterExclusive(s[1..], p, q);
    }
  }

  /** A predicate and its negation split a sequence: the two filtered lengths add up. */
  lemma {:induction false} FilterPartition<T>(s: seq<T>, p: T -> bool, q: T -> bool)
    requires forall i :: 0 <= i < |s| ==> q(s[i]) == !p(s[i])
    ensures |Filter(s, p)| + |Filter(s, q)| == |s|
    decreases |s|
  {
    if s != [] {
      FilterPartition(s[1..], p, q);
    }
  }
}

=== FILE: store.dfy ===
/** The background worker's request table, a JavaScript `Map<string, NetworkRequest>`
    (src/background.ts:3). A `Map` iterates in insertion order and `set` on an
    existing key keeps the key's position, so the table is modelled as a sequence
    of entries with pairwise distinct ids. */
module RequestStore {
  import opened Wrappers
  import opened Types
  import Seqs

  datatype Entry = Entry(id: string, request: NetworkRequest)

  type Store = seq<Entry>

  predicate Distinct<T(==)>(s: seq<T>) {
    forall i, j :: 0 <= i < j < |s| ==> s[i] != s[j]
  }

  /** The keys in iteration order (`requests.keys()`). */
  function Ids(st: Store): (r: seq<string>)
    ensures |r| == |st|
    decreases |st|
  {
    if st == [] then [] else [st[0].id] + Ids(st[1..])
  }

  /** No id occurs twice: the shape every `Map` has. */
  predicate UniqueIds(st: Store) {
    Distinct(Ids(st))
  }

  /** The values in iteration order (`requests.values()`). */
  function Values(st: Store): (r: seq<NetworkRequest>)
    ensures |r| == |st|
    ensures forall i :: 0 <= i < |st| ==> r[i] == st[i].request
  {
    seq(|st|, i requires 0 <= i < |st| => st[i].request)
  }

  /** `requests.get(id)`: the value stored under `id`, if any. */
  function Get(st: Store, id: string): (r: Option<NetworkRequest>)
    ensures r.None? <==> id !in Ids(st)
    ensures r.Some? ==> Entry(id, r.value) in st
    decreases |st|
  {
    if st == [] then None
    else if st[0].id == id then Some(st[0].request)
    else
      assert Ids(st[1..]) == Ids(st)[1..];
      Get(st[1..], id)
  }

  /** `requests.set(id, x)`: overwrites the entry for `id` where it stands, or
      appends a new entry when `id` is absent. */
  function Set(st: Store, id: string, x: NetworkRequest): (r: Store)
    ensures Get(r, id) == Some(x)
    ensures forall k :: k != id ==> Get(r, k) == Get(st, k)
    ensures Ids(r) == if id in Ids(st) then Ids(st) else Ids(st) + [id]
    ensures UniqueIds(st) ==> UniqueIds(r)
    decreases |st|
  {
    if st == [] then [Entry(id, x)]
    else if st[0].id == id then
      GetCons(Entry(id, x), st[1..]);
      GetCons(st[0], st[1..]);
      assert [st[0]] + st[1..] == st;
      [Entry(id, x)] + st[1..]
    else
      var rest := Set(st[1..], id, x);
      assert [st[0]] + st[1..] == st;
      SetCons(st[0], st[1..], id, x, rest);
      [st[0]] + rest
  }

  /** Setting a key the table does not hold appends its entry at the end. */
  lemma {:induction false} SetAbsent(st: Store, id: string, x: NetworkRequest)
    requires id !in Ids(st)
    ensures Set(st, id, x) == st + [Entry(id, x)]
    decreases |st|
  {
    if st != [] {
      assert Ids(st) == [st[0].id] + Ids(st[1..]);
      assert Set(st, id, x) == [st[0]] + Set(st[1..], id, x);
      SetAbsent(st[1..], id, x);
      AppendAfterHead(st, Entry(id, x));
    }
  }

  /** Re-attaching the head after appending to the tail is appending to the table. */
  lemma AppendAfterHead(st: Store, e: Entry)
    requires st != []
    ensures [st[0]] + (st[1..] + [e]) == st + [e]
  {
    assert [st[0]] + st[1..] == st;
  }

  /** Lookup in a table that starts with `e`. */
  lemma GetCons(e: Entry, rest: Store)
    ensures forall k :: Get([e] + rest, k) == if e.id == k then Some(e.request) else Get(rest, k)
    ensures Ids([e] + rest) == [e.id] + Ids(rest)
  {
    assert ([e] + rest)[1..] == rest;
  }

  lemma DistinctCons<T>(a: T, s: seq<T>)
    ensures Distinct([a] + s) <==> a !in s && Distinct(s)
  {
    var t := [a] + s;
    if Distinct(t) {
      forall j | 0 <= j < |s| ensures s[j] != a {
        assert t[0] == a && t[j + 1] == s[j];
      }
      forall i, j | 0 <= i < j < |s| ensures s[i] != s[j] {
        assert t[i + 1] == s[i] && t[j + 1] == s[j];
      }
    }
  }

  /** The step of `Set` past a head entry with a different id. */
  lemma SetCons(e: Entry, tail: Store, id: string, x: NetworkRequest, rest: Store)
    requires e.id != id
    requires Get(rest, id) == Some(x)
    requires forall k :: k != id ==> Get(rest, k) == Get(tail, k)
    requires Ids(rest) == if id in Ids(tail) then Ids(tail) else Ids(tail) + [id]
    requires UniqueIds(tail) ==> UniqueIds(rest)
    ensures Get([e] + rest, id) == Some(x)
    ensures forall k :: k != id ==> Get([e] + rest, k) == Get([e] + tail, k)
    ensures Ids([e] + rest) ==
      if id in Ids([e] + tail) then Ids([e] + tail) else Ids([e] + tail) + [id]
    ensures UniqueIds([e] + tail) ==> UniqueIds([e] + rest)
  {
    GetCons(e, rest);
    GetCons(e, tail);
    if id in Ids(tail) {
      assert id in Ids([e] + tail);
    } else {
      assert id !in Ids([e] + tail);
      assert [e.id] + (Ids(tail) + [id]) == ([e.id] + Ids(tail)) + [id];
    }
    if UniqueIds([e] + tail) {
      DistinctCons(e.id, Ids(tail));
      DistinctCons(e.id, Ids(rest));
      assert e.id !in Ids(rest);
    }
  }

  /** An id is a key exactly when some entry carries it. */
  lemma {:induction false} InIds(st: Store, id: string)
    ensures id in Ids(st) <==> exists e :: e in st && e.id == id
    decreases |st|
  {
    if st != [] {
      InIds(st[1..], id);
      assert st == [st[0]] + st[1..];
      if id in Ids(st[1..]) {
        var e :| e in st[1..] && e.id == id;
        assert e in st;
      }
    }
  }

  lemma UniqueIdsCons(e: Entry, rest: Store)
    ensures UniqueIds([e] + rest) <==> e.id !in Ids(rest) && UniqueIds(rest)
  {
    GetCons(e, rest);
    DistinctCons(e.id, Ids(rest));
  }

  /** Lookup in a table with unique ids finds exactly the stored entry. */
  lemma {:induction false} GetUnique(st: Store, id: string, x: NetworkRequest)
    requires UniqueIds(st)
    ensures Get(st, id) == Some(x) <==> Entry(id, x) in st
    decreases |st|
  {
    if st != [] {
      assert st == [st[0]] + st[1..];
      UniqueIdsCons(st[0], st[1..]);
      GetUnique(st[1..], id, x);
    }
  }

  /** The entries that do not belong to tab `tab`, in their original order:
      the table after `clearRequestsForTab(tab)`. */
  function ClearTab(st: Store, tab: int): (r: Store)
    ensures forall i :: 0 <= i < |r| ==> r[i] in st && r[i].request.tabId != tab
    ensures forall i :: 0 <= i < |st| && st[i].request.tabId != tab ==> st[i] in r
  {
    Seqs.Filter(st, (e: Entry) => e.request.tabId != tab)
  }

  /** `Array.from(requests.values()).filter(req => req.tabId === tab)`. */
  function ForTab(st: Store, tab: int): (r: seq<NetworkRequest>)
    ensures forall i :: 0 <= i < |r| ==> r[i].tabId == tab
    ensures forall x :: x in r <==> x in Values(st) && x.tabId == tab
  {
    Seqs.Filter(Values(st), (x: NetworkRequest) => x.tabId == tab)
  }

  /** `requests.delete(id)`: the entry for `id` is gone and every other lookup is
      unchanged. */
  function Delete(st: Store, id: string): (r: Store)
    ensures Get(r, id).None?
    ensures forall k :: k != id ==> Get(r, k) == Get(st, k)
    decreases |st|
  {
    if st == [] then []
    else
      assert [st[0]] + st[1..] == st;
      GetCons(st[0], st[1..]);
      var rest := Delete(st[1..], id);
      if st[0].id == id then rest
      else
        GetCons(st[0], rest);
        [st[0]] + rest
  }

  /** Deleting an absent key changes nothing, not even the order. */
  lemma {:induction false} DeleteMissing(st: Store, id: string)
    requires id !in Ids(st)
    ensures Delete(st, id) == st
    decreases |st|
  {
    if st != [] {
      assert Ids(st) == [st[0].id] + Ids(st[1..]);
      DeleteMissing(st[1..], id);
      assert [st[0]] + st[1..] == st;
    }
  }

  /** Deleting from a concatenation deletes from each part. */
  lemma {:induction false} DeleteAppend(a: Store, b: Store, id: string)
    ensures Delete(a + b, id) == Delete(a, id) + Delete(b, id)
    decreases |a|
  {
    if a == [] {
      assert a + b == b;
    } else {
      assert (a + b)[0] == a[0] && (a + b)[1..] == a[1..] + b;
      DeleteAppend(a[1..], b, id);
      if a[0].id != id {
        assert [a[0]] + (Delete(a[1..], id) + Delete(b, id))
            == ([a[0]] + Delete(a[1..], id)) + Delete(b, id);
      }
    }
  }

  /** The key at position `i` is the id of the entry at position `i`. */
  lemma {:induction false} IdsAt(st: Store)
    ensures forall i :: 0 <= i < |st| ==> Ids(st)[i] == st[i].id
    decreases |st|
  {
    if st != [] {
      IdsAt(st[1..]);
    }
  }

  /** With distinct ids, the id at position `i` occurs nowhere else. */
  lemma UniqueIdElsewhere(st: Store, i: int)
    requires UniqueIds(st) && 0 <= i < |st|
    ensures st[i].id !in Ids(st[..i]) && st[i].id !in Ids(st[i + 1..])
  {
    IdsAt(st);
    forall k | 0 <= k < |st| && k != i ensures st[k].id != st[i].id {
      if k < i {
        assert Ids(st)[k] != Ids(st)[i];
      } else {
        assert Ids(st)[i] != Ids(st)[k];
      }
    }
    InIds(st[..i], st[i].id);
    InIds(st[i + 1..], st[i].id);
  }

  /** A cleared table has no key its source lacks. */
  lemma ClearedIdsFromPrefix(p: Store, tab: int, id: string)
    requires id !in Ids(p)
    ensures id !in Ids(ClearTab(p, tab))
  {
    var c := ClearTab(p, tab);
    IdsAt(p);
    IdsAt(c);
    forall j | 0 <= j < |c| ensures Ids(c)[j] != id {
      InIds(p, c[j].id);
    }
  }

  /** The loop of `clearRequestsForTab` (src/background.ts:127-133) over the live table:
      a cursor walks the entries in order and `requests.delete` removes the entry under
      it when it belongs to `tab`. The next entry then slides under the cursor, so the
      remaining entries are still each visited once; `i` counts the entries visited. */
  method ClearRequestsForTab(st: Store, tab: int) returns (r: Store)
    requires UniqueIds(st)
    ensures r == ClearTab(st, tab)
  {
    r := st;
    var cursor := 0;
    ghost var i := 0;
    while cursor < |r|
      invariant 0 <= i <= |st| && Walked(st, tab, i, r, cursor)
      decreases |st| - i
    {
      WalkStep(st, tab, i, r, cursor);
      if r[cursor].request.tabId == tab {
        r := Delete(r, r[cursor].id);
      } else {
        cursor := cursor + 1;
      }
      i := i + 1;
    }
    WalkDone(st, tab, i, r, cursor);
  }

  /** The loop's picture after visiting the first `i` entries: the visited entries of
      other tabs lie before the cursor, in order, and the unvisited ones from it on. */
  ghost predicate Walked(st: Store, tab: int, i: nat, r: Store, cursor: int)
    requires i <= |st|
  {
    r == Kept(st, tab, i) + st[i..] && cursor == |Kept(st, tab, i)|
  }

  /** The entries of other tabs among the first `i`, in order. */
  ghost function Kept(st: Store, tab: int, i: nat): Store
    requires i <= |st|
  {
    if i == 0 then []
    else if st[i - 1].request.tabId != tab then Kept(st, tab, i - 1) + [st[i - 1]]
    else Kept(st, tab, i - 1)
  }

  /** What the loop has kept is the prefix with the tab's entries filtered out. */
  lemma {:induction false} KeptIsCleared(st: Store, tab: int, i: nat)
    requires i <= |st|
    ensures Kept(st, tab, i) == ClearTab(st[..i], tab)
  {
    if i > 0 {
      KeptIsCleared(st, tab, i - 1);
      Seqs.FilterSnoc(st[..i - 1], st[i - 1], (e: Entry) => e.request.tabId != tab);
      assert st[..i] == st[..i - 1] + [st[i - 1]];
    }
  }

  /** One turn of the loop: while entries remain, the one under the cursor is the
      `i`-th of the original table, and deleting or passing it keeps the picture. */
  lemma WalkStep(st: Store, tab: int, i: nat, r: Store, cursor: int)
    requires UniqueIds(st) && i <= |st| && Walked(st, tab, i, r, cursor)
    ensures cursor < |r| <==> i < |st|
    ensures i < |st| ==> r[cursor] == st[i]
    ensures i < |st| && st[i].request.tabId == tab ==> Walked(st, tab, i + 1, Delete(r, st[i].id), cursor)
    ensures i < |st| && st[i].request.tabId != tab ==> Walked(st, tab, i + 1, r, cursor + 1)
  {
    KeptIsCleared(st, tab, i);
    if i < |st| {
      KeptIsCleared(st, tab, i + 1);
      Seqs.SliceStep(st, i);
      if st[i].request.tabId == tab {
        DeleteVisited(st, tab, i);
      } else {
        KeepVisited(st, tab, i);
      }
    }
  }

  /** When the cursor has run off the table, every entry has been visited and the
      table is the filtered one. */
  lemma WalkDone(st: Store, tab: int, i: nat, r: Store, cursor: int)
    requires i <= |st| && Walked(st, tab, i, r, cursor) && cursor >= |r|
    ensures r == ClearTab(st, tab)
  {
    KeptIsCleared(st, tab, i);
    assert st[..i] == st;
  }

  /** Deleting the visited entry of `tab` from the table the loop has made so far. */
  lemma DeleteVisited(st: Store, tab: int, i: int)
    requires UniqueIds(st) && 0 <= i < |st| && st[i].request.tabId == tab
    ensures ClearTab(st[..i + 1], tab) == ClearTab(st[..i], tab)
    ensures Delete(ClearTab(st[..i], tab) + st[i..], st[i].id) == ClearTab(st[..i], tab) + st[i + 1..]
  {
    var kept := ClearTab(st[..i], tab);
    var id := st[i].id;
    Seqs.FilterSnoc(st[..i], st[i], (e: Entry) => e.request.tabId != tab);
    Seqs.SliceStep(st, i);
    UniqueIdElsewhere(st, i);
    ClearedIdsFromPrefix(st[..i], tab, id);
    DeleteAppend(kept, [st[i]] + st[i + 1..], id);
    DeleteAppend([st[i]], st[i + 1..], id);
    DeleteMissing(kept, id);
    DeleteMissing(st[i + 1..], id);
    assert Delete([st[i]], id) == [];
  }

  /** Stepping past a visited entry of another tab. */
  lemma KeepVisited(st: Store, tab: int, i: int)
    requires 0 <= i < |st| && st[i].request.tabId != tab
    ensures ClearTab(st[..i], tab) + st[i..] == ClearTab(st[..i + 1], tab) + st[i + 1..]
    ensures |ClearTab(st[..i + 1], tab)| == |ClearTab(st[..i], tab)| + 1
  {
    Seqs.FilterSnoc(st[..i], st[i], (e: Entry) => e.request.tabId != tab);
    Seqs.SliceStep(st, i);
  }

  /** Clearing a tab keeps the surviving entries in their original order. */
  lemma ClearTabKeepsOrder(st: Store, tab: int)
    ensures Seqs.SubsequenceOf(ClearTab(st, tab), st)
  {
    Seqs.FilterIsSubsequence(st, (e: Entry) => e.request.tabId != tab);
  }

  /** Clearing the same tab twice is clearing it once. */
  lemma ClearTabIdempotent(st: Store, tab: int)
    ensures ClearTab(ClearTab(st, tab), tab) == ClearTab(st, tab)
  {
    Seqs.FilterIdempotent(st, (e: Entry) => e.request.tabId != tab);
  }

  /** Clearing keeps ids unique. */
  lemma {:induction false} ClearTabUnique(st: Store, tab: int)
    requires UniqueIds(st)
    ensures UniqueIds(ClearTab(st, tab))
    decreases |st|
  {
    if st != [] {
      assert st == [st[0]] + st[1..];
      UniqueIdsCons(st[0], st[1..]);
      ClearTabUnique(st[1..], tab);
      var rest := ClearTab(st[1..], tab);
      if st[0].request.tabId != tab {
        assert ClearTab(st, tab) == [st[0]] + rest;
        InIds(rest, st[0].id);
        InIds(st[1..], st[0].id);
        UniqueIdsCons(st[0], rest);
      }
    }
  }

  /** After clearing `tab`, a lookup finds nothing of `tab` and finds every other
      tab's entry as before. */
  lemma ClearTabGet(st: Store, tab: int, id: string)
    requires UniqueIds(st)
    ensures var before := Get(st, id);
      Get(ClearTab(st, tab), id) ==
        if before.Some? && before.value.tabId == tab then None else before
  {
    ClearTabUnique(st, tab);
    var after := Get(ClearTab(st, tab), id);
    var before := Get(st, id);
    if after.Some? {
      GetUnique(ClearTab(st, tab), id, after.value);
      GetUnique(st, id, after.value);
    } else if before.Some? && before.value.tabId != tab {
      GetUnique(st, id, before.value);
      var i :| 0 <= i < |st| && st[i] == Entry(id, before.value);
      GetUnique(ClearTab(st, tab), id, before.value);
    }
  }

  /** Clearing one tab leaves every other tab's view untouched, and empties its own. */
  lemma ClearTabIsolation(st: Store, cleared: int, other: int)
    ensures ForTab(ClearTab(st, cleared), cleared) == []
    ensures cleared != other ==> ForTab(ClearTab(st, cleared), other) == ForTab(st, other)
  {
    ClearTabEmptiesOwn(st, cleared);
    if cleared != other {
      ClearTabKeepsOther(st, cleared, other);
    }
  }

  lemma ClearTabEmptiesOwn(st: Store, tab: int)
    ensures ForTab(ClearTab(st, tab), tab) == []
  {
    ValuesOfClearTab(st, tab);
    Seqs.FilterExclusive(Values(st), (x: NetworkRequest) => x.tabId != tab, (x: NetworkRequest) => x.tabId == tab);
  }

  lemma ClearTabKeepsOther(st: Store, cleared: int, other: int)
    requires cleared != other
    ensures ForTab(ClearTab(st, cleared), other) == ForTab(st, other)
  {
    var survives := (x: NetworkRequest) => x.tabId != cleared;
    var mine := (x: NetworkRequest) => x.tabId == other;
    ValuesOfClearTab(st, cleared);
    Seqs.FilterAbsorb(Values(st), survives, mine);
  }

  /** The values left after clearing a tab are the values filtered the same way. */
  lemma {:induction false} ValuesOfClearTab(st: Store, tab: int)
    ensures Values(ClearTab(st, tab)) == Seqs.Filter(Values(st), (x: NetworkRequest) => x.tabId != tab)
    decreases |st|
  {
    if st != [] {
      ValuesOfClearTab(st[1..], tab);
      ValuesCons(st[0], st[1..]);
      assert [st[0]] + st[1..] == st;
      if st[0].request.tabId != tab {
        ValuesCons(st[0], ClearTab(st[1..], tab));
      }
    }
  }

  /** A tab's view of a table with one more entry at the end gains that entry's
      record at the end exactly when the record is of the tab. */
  lemma ForTabSnoc(st: Store, e: Entry, tab: int)
    ensures ForTab(st + [e], tab) == ForTab(st, tab) + (if e.request.tabId == tab then [e.request] else [])
  {
    assert Values(st + [e]) == Values(st) + [e.request];
    Seqs.FilterSnoc(Values(st), e.request, (x: NetworkRequest) => x.tabId == tab);
  }

  lemma ValuesCons(e: Entry, rest: Store)
    ensures Values([e] + rest) == [e.request] + Values(rest)
  {
  }
}

=== FILE: strings.dfy ===
/** The JavaScript string operations the extension relies on: `startsWith`,
    `includes`, `trim`, `split`/`join` on one separator character and ASCII
    case mapping (`toLowerCase`/`toUpperCase` restricted to A-Z/a-z). */
module Strings {

  predicate StartsWith(s: string, prefix: string) {
    |prefix| <= |s| && s[..|prefix|] == prefix
  }

  predicate EndsWith(s: string, suffix: string) {
    |suffix| <= |s| && s[|s| - |suffix|..] == suffix
  }

  /** `sub` occurs in `s` starting at index `i`. */
  predicate OccursAt(s: string, sub: string, i: int) {
    0 <= i && i + |sub| <= |s| && s[i..i + |sub|] == sub
  }

  /** `s.includes(sub)`: searches left to right for an occurrence. */
  function Contains(s: string, sub: string): (r: bool)
    ensures r <==> exists i :: OccursAt(s, sub, i)
    decreases |s|
  {
    if StartsWith(s, sub) then
      assert OccursAt(s, sub, 0);
      true
    else if s == [] then
      false
    else
      OccursShift(s, sub);
      Contains(s[1..], sub)
  }

  /** Occurrences in `s` not at index 0 are exactly the occurrences in `s[1..]`, shifted. */
  lemma OccursShift(s: string, sub: string)
    requires s != []
    ensures forall i :: i != 0 && OccursAt(s, sub, i) ==> OccursAt(s[1..], sub, i - 1)
    ensures forall j :: OccursAt(s[1..], sub, j) ==> OccursAt(s, sub, j + 1)
  {
    forall i | i != 0 && OccursAt(s, sub, i)
      ensures OccursAt(s[1..], sub, i - 1)
    {
      assert s[1..][i - 1..i - 1 + |sub|] == s[i..i + |sub|];
    }
    forall j | OccursAt(s[1..], sub, j)
      ensures OccursAt(s, sub, j + 1)
    {
      assert s[1..][j..j + |sub|] == s[j + 1..j + 1 + |sub|];
    }
  }

  /** The empty string is contained in every string (`"x".includes("") === true`). */
  lemma ContainsEmpty(s: string)
    ensures Contains(s, "")
  {
    assert OccursAt(s, "", 0);
  }

  /** A string lacking one of the characters of `sub` cannot contain `sub`. */
  lemma MissingCharNotContained(s: string, sub: string, k: int)
    requires 0 <= k < |sub| && sub[k] !in s
    ensures !Contains(s, sub)
  {
  }

  /** Containment is transitive: an occurrence of an occurrence is an occurrence. */
  lemma ContainsTransitive(a: string, b: string, c: string)
    requires Contains(a, b) && Contains(b, c)
    ensures Contains(a, c)
  {
    var i :| OccursAt(a, b, i);
    var j :| OccursAt(b, c, j);
    forall k | 0 <= k < |c| ensures a[i + j + k] == c[k] {
      assert a[i..i + |b|][j + k] == b[j + k];
      assert b[j..j + |c|][k] == c[k];
    }
    assert OccursAt(a, c, i + j);
  }

  // ASCII case mapping

  function LowerChar(c: char): char {
    if 'A' <= c <= 'Z' then (c as int + 32) as char else c
  }

  function UpperChar(c: char): char {
    if 'a' <= c <= 'z' then (c as int - 32) as char else c
  }

  function ToLower(s: string): (r: string)
    ensures |r| == |s|
    ensures forall i :: 0 <= i < |s| ==> r[i] == LowerChar(s[i])
  {
    seq(|s|, i requires 0 <= i < |s| => LowerChar(s[i]))
  }

  function ToUpper(s: string): (r: string)
    ensures |r| == |s|
    ensures forall i :: 0 <= i < |s| ==> r[i] == UpperChar(s[i])
  {
    seq(|s|, i requires 0 <= i < |s| => UpperChar(s[i]))
  }

  /** Lower-casing forgets the case the text was written in. */
  lemma LowerOfUpper(s: string)
    ensures ToLower(ToUpper(s)) == ToLower(s)
  {
  }

  /** Upper-casing forgets the case the text was written in. */
  lemma UpperOfLower(s: string)
    ensures ToUpper(ToLower(s)) == ToUpper(s)
  {
  }

  lemma UpperIdempotent(s: string)
    ensures ToUpper(ToUpper(s)) == ToUpper(s)
  {
  }

  // `String.prototype.trim`

  /** The code points ECMAScript counts as WhiteSpace or LineTerminator. */
  predicate IsJsWhitespace(c: char) {
    || c in {'\t', '\n', '\U{B}', '\U{C}', '\r', ' ', '\U{A0}', '\U{1680}',
             '\U{2028}', '\U{2029}', '\U{202F}', '\U{205F}', '\U{3000}', '\U{FEFF}'}
    || '\U{2000}' <= c <= '\U{200A}'
  }

  /** Removes leading whitespace. */
  function TrimStart(s: string): (r: string)
    ensures |r| <= |s| && r == s[|s| - |r|..]
    ensures forall i :: 0 <= i < |s| - |r| ==> IsJsWhitespace(s[i])
    ensures r == [] || !IsJsWhitespace(r[0])
    decreases |s|
  {
    if s != [] && IsJsWhitespace(s[0]) then TrimStart(s[1..]) else s
  }

  /** Removes trailing whitespace. */
  function TrimEnd(s: string): (r: string)
    ensures |r| <= |s| && r == s[..|r|]
    ensures forall i :: |r| <= i < |s| ==> IsJsWhitespace(s[i])
    ensures r == [] || !IsJsWhitespace(r[|r| - 1])
    decreases |s|
  {
    if s != [] && IsJsWhitespace(s[|s| - 1]) then TrimEnd(s[..|s| - 1]) else s
  }

  /** `r` is `s` with the first `k` characters and everything after `k + |r|` dropped,
      and only whitespace was dropped. */
  predicate WhitespaceAround(s: string, r: string, k: int) {
    && 0 <= k <= |s| - |r|
    && r == s[k..k + |r|]
    && (forall i :: 0 <= i < k ==> IsJsWhitespace(s[i]))
    && (forall i :: k + |r| <= i < |s| ==> IsJsWhitespace(s[i]))
  }

  /** Every character of `s` is whitespace (vacuously so for ""). */
  predicate AllWhitespace(s: string) {
    forall i :: 0 <= i < |s| ==> IsJsWhitespace(s[i])
  }

  /** `s.trim()`: drops the leading, then the trailing whitespace. */
  function Trim(s: string): string {
    TrimEnd(TrimStart(s))
  }

  /** `Trim(s)` is the longest slice of `s` that neither starts nor ends with
      whitespace, obtained by dropping only whitespace: the slice starts where the
      leading whitespace ends, and is empty exactly when `s` is all whitespace. */
  lemma TrimSpec(s: string)
    ensures WhitespaceAround(s, Trim(s), |s| - |TrimStart(s)|)
    ensures Trim(s) != [] ==> !IsJsWhitespace(Trim(s)[0])
    ensures Trim(s) != [] ==> !IsJsWhitespace(Trim(s)[|Trim(s)| - 1])
    ensures Trim(s) == [] <==> AllWhitespace(s)
  {
    DropBothEnds(s, TrimStart(s), Trim(s));
  }

  /** Dropping leading whitespace to get `front`, then trailing whitespace of `front`
      to get `r`, drops only whitespace around a slice of `s`; `r` is empty exactly
      when `s` is all whitespace. */
  lemma DropBothEnds(s: string, front: string, r: string)
    requires |front| <= |s| && front == s[|s| - |front|..]
    requires forall i :: 0 <= i < |s| - |front| ==> IsJsWhitespace(s[i])
    requires front == [] || !IsJsWhitespace(front[0])
    requires |r| <= |front| && r == front[..|r|]
    requires forall i :: |r| <= i < |front| ==> IsJsWhitespace(front[i])
    requires r == [] || !IsJsWhitespace(r[|r| - 1])
    ensures WhitespaceAround(s, r, |s| - |front|)
    ensures r != [] ==> !IsJsWhitespace(r[0])
    ensures r != [] ==> !IsJsWhitespace(r[|r| - 1])
    ensures r == [] <==> AllWhitespace(s)
  {
    var k := |s| - |front|;
    assert r == s[k..k + |r|];
    forall i | k + |r| <= i < |s| ensures IsJsWhitespace(s[i]) {
      assert s[i] == front[i - k];
    }
    if r != [] {
      assert s[k] == r[0] == front[0];
    }
  }

  /** Text that neither starts nor ends with whitespace is its own trim. */
  lemma TrimUntouched(s: string)
    requires s != [] && !IsJsWhitespace(s[0]) && !IsJsWhitespace(s[|s| - 1])
    ensures Trim(s) == s
  {
  }

  // `split` and `join` on a one-character separator

  /** `s.split(sep)`: the maximal separator-free pieces between separators,
      including empty ones; `"".split(sep)` is `[""]`. */
  function Split(s: string, sep: char): (parts: seq<string>)
    ensures |parts| >= 1
    ensures forall i :: 0 <= i < |parts| ==> sep !in parts[i]
    decreases |s|
  {
    if s == [] then [""]
    else
      var rest := Split(s[1..], sep);
      if s[0] == sep then [""] + rest
      else [[s[0]] + rest[0]] + rest[1..]
  }

  /** `parts.join(sep)`. */
  function Join(parts: seq<string>, sep: char): string
    decreases |parts|
  {
    if parts == [] then ""
    else if |parts| == 1 then parts[0]
    else parts[0] + [sep] + Join(parts[1..], sep)
  }

  /** Joining the pieces of a split restores the text. */
  lemma {:induction false} JoinSplit(s: string, sep: char)
    ensures Join(Split(s, sep), sep) == s
    decreases |s|
  {
    if s != [] {
      var rest := Split(s[1..], sep);
      JoinSplit(s[1..], sep);
      if s[0] == sep {
        assert ([""] + rest)[1..] == rest;
        assert s == [sep] + s[1..];
      } else {
        var parts := [[s[0]] + rest[0]] + rest[1..];
        if |rest| == 1 {
          assert s == [s[0]] + s[1..];
        } else {
          assert parts[1..] == rest[1..];
          assert Join(rest, sep) == rest[0] + [sep] + Join(rest[1..], sep);
          assert s == [s[0]] + s[1..];
        }
      }
    }
  }

  /** A separator-free piece followed by a separator splits off as one part. */
  lemma {:induction false} SplitPrefix(a: string, sep: char, b: string)
    requires sep !in a
    ensures Split(a + [sep] + b, sep) == [a] + Split(b, sep)
    decreases |a|
  {
    if a == [] {
      assert a + [sep] + b == [sep] + b;
      assert ([sep] + b)[1..] == b;
    } else {
      assert (a + [sep] + b)[1..] == a[1..] + [sep] + b;
      SplitPrefix(a[1..], sep, b);
      assert [a[0]] + a[1..] == a;
    }
  }

  /** A separator-free string splits into itself. */
  lemma {:induction false} SplitNoSeparator(a: string, sep: char)
    requires sep !in a
    ensures Split(a, sep) == [a]
    decreases |a|
  {
    if a != [] {
      SplitNoSeparator(a[1..], sep);
      assert [a[0]] + a[1..] == a;
    }
  }

  /** Splitting a join of separator-free pieces recovers the pieces. */
  lemma {:induction false} SplitJoin(parts: seq<string>, sep: char)
    requires |parts| >= 1
    requires forall i :: 0 <= i < |parts| ==> sep !in parts[i]
    ensures Split(Join(parts, sep), sep) == parts
    decreases |parts|
  {
    if |parts| == 1 {
      SplitNoSeparator(parts[0], sep);
    } else {
      SplitJoin(parts[1..], sep);
      SplitPrefix(parts[0], sep, Join(parts[1..], sep));
      assert [parts[0]] + parts[1..] == parts;
    }
  }
}

=== FILE: types.dfy ===
/** The records shared by the background worker and the popup (src/types.ts). */
module Types {
  import opened Wrappers

  /** A JavaScript `Record<string, string>` of HTTP headers. */
  type Headers = map<string, string>

  /** One captured HTTP exchange. `status` is 0 until a response has been seen;
      `timestamp` is kept as an integer number of milliseconds. */
  datatype NetworkRequest = NetworkRequest(
    id: string,
    url: string,
    httpMethod: string,   // the `method` field
    status: int,
    timestamp: int,
    requestHeaders: Headers,
    responseHeaders: Headers,
    requestBody: Option<string>,
    responseBody: Option<string>,
    tabId: int
  )

  /** The popup's persisted settings. */
  datatype ExtensionSettings = ExtensionSettings(
    clearOnTabRefresh: bool,
    darkMode: bool,
    savedFilters: seq<string>
  )

  /** `keyof ExtensionSettings`. */
  datatype SettingsKey = ClearOnTabRefresh | DarkMode | SavedFilters
}

=== FILE: ui.dfy ===
/** The popup's pure logic (src/components/App.tsx, src/components/Settings.tsx):
    the URL filter over the fetched records and the count shown in the header, the
    default settings and the boolean toggle. */
module Ui {
  import opened Wrappers
  import opened Types
  import opened Strings
  import Seqs
  import Background

  /** Whether a record passes the filter box: its URL contains the filter text,
      both lower-cased. */
  predicate Matches(filter: string, request: NetworkRequest) {
    Contains(ToLower(request.url), ToLower(filter))
  }

  /** `filteredRequests` (src/components/App.tsx:99-101): the records whose URL
      contains the filter, ignoring case, in the order they were fetched. */
  function FilterRequests(requests: seq<NetworkRequest>, filter: string): (r: seq<NetworkRequest>)
    ensures forall x :: x in r <==> x in requests && Matches(filter, x)
    ensures Seqs.SubsequenceOf(r, requests)
  {
    Seqs.FilterIsSubsequence(requests, (x: NetworkRequest) => Matches(filter, x));
    Seqs.Filter(requests, (x: NetworkRequest) => Matches(filter, x))
  }

  /** The count in the header (src/components/App.tsx:144): the records fetched minus
      those the filter hides, so all of them while the filter box is empty. */
  function RequestCount(requests: seq<NetworkRequest>, filter: string): (r: nat)
    ensures r + |Seqs.Filter(requests, (x: NetworkRequest) => !Matches(filter, x))| == |requests|
    ensures filter == "" ==> r == |requests|
  {
    var r := |FilterRequests(requests, filter)|;
    Seqs.FilterPartition(requests, (x: NetworkRequest) => Matches(filter, x), (x: NetworkRequest) => !Matches(filter, x));
    if filter == "" then EmptyFilterKeepsAll(requests); r else r
  }

  /** An empty filter box shows every record. */
  lemma EmptyFilterKeepsAll(requests: seq<NetworkRequest>)
    ensures FilterRequests(requests, "") == requests
  {
    forall i | 0 <= i < |requests| ensures Matches("", requests[i]) {
      ContainsEmpty(ToLower(requests[i].url));
    }
    Seqs.FilterAll(requests, (x: NetworkRequest) => Matches("", x));
  }

  /** Filters that differ only in letter case select the same records. */
  lemma FilterIgnoresCase(requests: seq<NetworkRequest>, f: string, g: string)
    requires ToLower(f) == ToLower(g)
    ensures FilterRequests(requests, f) == FilterRequests(requests, g)
  {
    Seqs.FilterCongruent(requests, (x: NetworkRequest) => Matches(f, x), (x: NetworkRequest) => Matches(g, x));
  }

  /** Typing the filter in capitals changes nothing. */
  lemma UpperCaseFilter(requests: seq<NetworkRequest>, f: string)
    ensures FilterRequests(requests, ToUpper(f)) == FilterRequests(requests, f)
  {
    LowerOfUpper(f);
    FilterIgnoresCase(requests, ToUpper(f), f);
  }

  /** Typing more of the filter only narrows the list: a record that passes a
      longer filter passes every filter contained in it. */
  lemma NarrowingFilter(requests: seq<NetworkRequest>, f: string, g: string)
    requires Contains(ToLower(g), ToLower(f))
    ensures forall x :: x in FilterRequests(requests, g) ==> x in FilterRequests(requests, f)
  {
    forall x | x in FilterRequests(requests, g) ensures x in FilterRequests(requests, f) {
      ContainsTransitive(ToLower(x.url), ToLower(g), ToLower(f));
    }
  }

  /** The settings the popup starts with (src/components/App.tsx:15-19). */
  function DefaultSettings(): (r: ExtensionSettings)
    ensures r.clearOnTabRefresh && !r.darkMode && r.savedFilters == []
  {
    ExtensionSettings(clearOnTabRefresh := true, darkMode := false, savedFilters := [])
  }

  /** `toggleSetting(key)` (src/components/Settings.tsx:17-24): a boolean setting is
      negated and handed on, with every other setting as it was; the filter list is
      not a boolean, and then nothing is handed on (None). */
  function ToggleSetting(s: ExtensionSettings, key: SettingsKey): (r: Option<ExtensionSettings>)
    ensures key == SavedFilters <==> r.None?
    ensures key == ClearOnTabRefresh ==>
      r == Some(s.(clearOnTabRefresh := !s.clearOnTabRefresh))
    ensures key == DarkMode ==>
      r == Some(s.(darkMode := !s.darkMode))
    ensures r.Some? ==> r.value.savedFilters == s.savedFilters && r.value != s
  {
    match key
    case ClearOnTabRefresh => Some(s.(clearOnTabRefresh := !s.clearOnTabRefresh))
    case DarkMode => Some(s.(darkMode := !s.darkMode))
    case SavedFilters => None
  }

  /** Toggling the same setting twice restores the settings. */
  lemma ToggleTwice(s: ExtensionSettings, key: SettingsKey)
    requires key != SavedFilters
    ensures ToggleSetting(ToggleSetting(s, key).value, key) == Some(s)
  {
  }

  /** Toggling two different settings commutes. */
  lemma TogglesCommute(s: ExtensionSettings, a: SettingsKey, b: SettingsKey)
    requires a != SavedFilters && b != SavedFilters
    ensures ToggleSetting(ToggleSetting(s, a).value, b).value
         == ToggleSetting(ToggleSetting(s, b).value, a).value
  {
  }

  /** The popup's default for "clear on tab refresh" agrees with what the refresh
      listener does when no flag is stored: both clear. */
  lemma DefaultMatchesMissing(s: Background.State, tab: int, status: Option<string>)
    ensures Background.RefreshClears(s, tab, status, Some(DefaultSettings().clearOnTabRefresh))
        == Background.RefreshClears(s, tab, status, None)
  {
  }
}

=== FILE: utils.dfy ===
/** The pure helpers of src/utils.ts. `JSON.parse`/`JSON.stringify` are passed in as
    functions and the `URL` constructor's outcome is an input, so each helper is
    stated for every parser, printer and URL reading. */
module Utils {
  import opened Wrappers
  import opened Types
  import opened Strings
  import Seqs

  // getStatusColor (src/utils.ts:87-96)

  const StatusGreen := "text-green-600"
  const StatusYellow := "text-yellow-600"
  const StatusRed := "text-red-600"
  const StatusGray := "text-gray-600"

  /** The colour class of an HTTP status: 2xx green, 3xx yellow, 400 and above red,
      anything below 200 (the pending 0 included) gray. Each class is taken on
      exactly one band. */
  function StatusColor(status: int): (r: string)
    ensures r == StatusGreen <==> 200 <= status < 300
    ensures r == StatusYellow <==> 300 <= status < 400
    ensures r == StatusRed <==> 400 <= status
    ensures r == StatusGray <==> status < 200
  {
    if status >= 200 && status < 300 then StatusGreen
    else if status >= 300 && status < 400 then StatusYellow
    else if status >= 400 then StatusRed
    else StatusGray
  }

  // getMethodColor (src/utils.ts:70-84)

  const MethodGet := "text-green-600 bg-green-50"
  const MethodPost := "text-blue-600 bg-blue-50"
  const MethodPut := "text-yellow-600 bg-yellow-50"
  const MethodDelete := "text-red-600 bg-red-50"
  const MethodPatch := "text-purple-600 bg-purple-50"
  const MethodOther := "text-gray-600 bg-gray-50"

  /** The colour class of an HTTP method, compared after upper-casing: the five known
      methods each have their own class and every other method is gray. */
  function MethodColor(httpMethod: string): (r: string)
    ensures r == MethodGet <==> ToUpper(httpMethod) == "GET"
    ensures r == MethodPost <==> ToUpper(httpMethod) == "POST"
    ensures r == MethodPut <==> ToUpper(httpMethod) == "PUT"
    ensures r == MethodDelete <==> ToUpper(httpMethod) == "DELETE"
    ensures r == MethodPatch <==> ToUpper(httpMethod) == "PATCH"
    ensures r == MethodOther <==> ToUpper(httpMethod) !in {"GET", "POST", "PUT", "DELETE", "PATCH"}
  {
    match ToUpper(httpMethod)
    case "GET" => MethodGet
    case "POST" => MethodPost
    case "PUT" => MethodPut
    case "DELETE" => MethodDelete
    case "PATCH" => MethodPatch
    case _ => MethodOther
  }

  /** The colour of a method does not depend on how it is capitalised. */
  lemma MethodColorIgnoresCase(httpMethod: string)
    ensures MethodColor(ToUpper(httpMethod)) == MethodColor(httpMethod)
    ensures MethodColor(ToLower(httpMethod)) == MethodColor(httpMethod)
  {
    UpperIdempotent(httpMethod);
    UpperOfLower(httpMethod);
  }

  // truncateUrl (src/utils.ts:98-104)

  /** The default `maxLength`. */
  const DefaultMaxLength := 50

  function Clamp(x: int, len: nat): (r: nat)
    ensures r <= len
  {
    if x < 0 then 0 else if x > len then len else x
  }

  /** `s.substring(start, end)` for integer arguments: both are clamped to the string
      and swapped when out of order. */
  function Substring(s: string, start: int, end: int): (r: string)
    ensures |r| <= |s|
  {
    var a := Clamp(start, |s|);
    var b := Clamp(end, |s|);
    if a <= b then s[a..b] else s[b..a]
  }

  /** `n / 2` as a `substring` index: the quotient of JavaScript's exact division,
      truncated toward zero. */
  function HalfTowardZero(n: int): int {
    if n >= 0 then n / 2 else -((-n) / 2)
  }

  /** `truncateUrl(url, maxLength)`. A URL that fits is returned unchanged. A longer one
      keeps its first ⌊maxLength/2⌋ and last ⌈maxLength/2⌉ characters around "...", so
      the result is exactly `maxLength + 3` characters long; with a negative
      `maxLength` only "..." remains. */
  function TruncateUrl(url: string, maxLength: int): (r: string)
    ensures |url| <= maxLength ==> r == url
    ensures 0 <= maxLength < |url| ==>
      && r == url[..maxLength / 2] + "..." + url[|url| - (maxLength - maxLength / 2)..]
      && |r| == maxLength + 3
    ensures maxLength < 0 ==> r == "..."
  {
    if |url| <= maxLength then url
    else
      var start := Substring(url, 0, HalfTowardZero(maxLength));
      var end := Substring(url, HalfTowardZero(2 * |url| - maxLength), |url|);
      start + "..." + end
  }

  /** `truncateUrl(url)` with the default `maxLength` of 50: a URL of at most 50
      characters is shown whole, and a longer one as its first 25 characters, "...",
      and its last 25, 53 characters in all. */
  function TruncateUrlDefault(url: string): (r: string)
    ensures |url| <= 50 ==> r == url
    ensures |url| > 50 ==>
      && |r| == 53 && r[..25] == url[..25] && r[25..28] == "..." && r[28..] == url[|url| - 25..]
  {
    TruncateUrl(url, DefaultMaxLength)
  }

  // tryParseJson (src/utils.ts:57-68)

  /** What `tryParseJson` hands back: the input text itself, or what the parser built. */
  datatype Parsed<J> = Text(text: string) | Value(value: J)

  /** Whether the trimmed text is worth handing to the parser: non-empty and opening
      with "{" or "[". */
  predicate LooksLikeJson(trimmed: string) {
    trimmed != [] && (trimmed[0] == '{' || trimmed[0] == '[')
  }

  /** `tryParseJson(text)` with `parse` standing for `JSON.parse` (None when it throws).
      The parser only ever sees the trimmed text, and only when it looks like JSON;
      every fallback returns the original, untrimmed text. */
  function TryParseJson<J>(text: string, parse: string -> Option<J>): (r: Parsed<J>)
    ensures r.Text? ==> r.text == text
    ensures r.Value? ==> LooksLikeJson(Trim(text)) && parse(Trim(text)) == Some(r.value)
    ensures !LooksLikeJson(Trim(text)) ==> r == Text(text)
    ensures LooksLikeJson(Trim(text)) && parse(Trim(text)).None? ==> r == Text(text)
  {
    var trimmed := Trim(text);
    if !LooksLikeJson(trimmed) then Text(text)
    else
      match parse(trimmed)
      case None => Text(text)
      case Some(v) => Value(v)
  }

  // formatRequestForCopy / formatResponseForCopy (src/utils.ts:27-55)

  /** The shared body of the two copy formatters. An absent or empty body gives "";
      a body that parses is re-printed by `stringify` (`JSON.stringify(parsed, null, 2)`);
      any other body is returned verbatim. The parser only ever yields an object or an
      array, since it only sees text opening with "{" or "[", so every parsed value
      passes the `typeof parsed === "object"` test. */
  function FormatBodyForCopy<J>(body: Option<string>, parse: string -> Option<J>, stringify: J -> string): (r: string)
    ensures body.None? || body == Some("") ==> r == ""
    ensures body.Some? && body.value != "" && TryParseJson(body.value, parse).Text? ==> r == body.value
    ensures body.Some? && body.value != "" && TryParseJson(body.value, parse).Value? ==>
      r == stringify(TryParseJson(body.value, parse).value)
  {
    if body.None? || body.value == "" then ""
    else
      match TryParseJson(body.value, parse)
      case Value(v) => stringify(v)
      case Text(_) => body.value
  }

  /** `formatRequestForCopy`: the request body, pretty-printed when it is JSON. */
  function FormatRequestForCopy<J>(req: NetworkRequest, parse: string -> Option<J>, stringify: J -> string): (r: string)
    ensures req.requestBody.None? || req.requestBody == Some("") ==> r == ""
    ensures req.requestBody.Some? && !LooksLikeJson(Trim(req.requestBody.value)) ==> r == req.requestBody.value
    ensures req.requestBody.Some? && req.requestBody.value != "" && parse(Trim(req.requestBody.value)).None? ==> r == req.requestBody.value
    ensures req.requestBody.Some? && LooksLikeJson(Trim(req.requestBody.value)) && parse(Trim(req.requestBody.value)).Some? ==>
      r == stringify(parse(Trim(req.requestBody.value)).value)
  {
    FormatBodyForCopy(req.requestBody, parse, stringify)
  }

  /** `formatResponseForCopy`: the response body, pretty-printed when it is JSON. */
  function FormatResponseForCopy<J>(req: NetworkRequest, parse: string -> Option<J>, stringify: J -> string): (r: string)
    ensures req.responseBody.None? || req.responseBody == Some("") ==> r == ""
    ensures req.responseBody.Some? && !LooksLikeJson(Trim(req.responseBody.value)) ==> r == req.responseBody.value
    ensures req.responseBody.Some? && req.responseBody.value != "" && parse(Trim(req.responseBody.value)).None? ==> r == req.responseBody.value
    ensures req.responseBody.Some? && LooksLikeJson(Trim(req.responseBody.value)) && parse(Trim(req.responseBody.value)).Some? ==>
      r == stringify(parse(Trim(req.responseBody.value)).value)
  {
    FormatBodyForCopy(req.responseBody, parse, stringify)
  }

  /** A body the parser rejects is copied verbatim, whatever the printer does. */
  lemma UnparsableBodyCopiedVerbatim<J>(body: string, parse: string -> Option<J>, stringify: J -> string)
    requires body != "" && parse(Trim(body)).None?
    ensures FormatBodyForCopy(Some(body), parse, stringify) == body
  {
  }

  /** The shape of `JSON.stringify`'s output for an object or an array: it opens with
      "{" or "[" and closes with "}" or "]". */
  predicate Bracketed(out: string) {
    && |out| >= 2
    && (out[0] == '{' || out[0] == '[')
    && (out[|out| - 1] == '}' || out[|out| - 1] == ']')
  }

  /** What is copied from a JSON body parses back to the value the body held, given a
      printer whose output is bracketed and which the parser reads back (as
      `JSON.parse` reads `JSON.stringify`'s output). */
  lemma CopiedJsonReparses<J>(body: string, parse: string -> Option<J>, stringify: J -> string, v: J)
    requires body != "" && TryParseJson(body, parse) == Value(v)
    requires Bracketed(stringify(v)) && parse(stringify(v)) == Some(v)
    ensures TryParseJson(FormatBodyForCopy(Some(body), parse, stringify), parse) == Value(v)
  {
    var out := stringify(v);
    assert FormatBodyForCopy(Some(body), parse, stringify) == out;
    BracketedIsTrimmed(out);
  }

  /** Bracketed text has no whitespace to trim and looks like JSON. */
  lemma BracketedIsTrimmed(out: string)
    requires Bracketed(out)
    ensures Trim(out) == out && LooksLikeJson(Trim(out))
  {
    assert !IsJsWhitespace(out[0]) && !IsJsWhitespace(out[|out| - 1]);
    TrimUntouched(out);
  }

  // extractFunctionName (src/utils.ts:106-134)

  /** What `new URL(url)` yields that the function reads. */
  datatype UrlParts = UrlParts(protocol: string, host: string, pathname: string)

  datatype FunctionName = FunctionName(baseUrl: string, functionName: string)

  /** `pathname.split("/").filter(part => part.length > 0)`. */
  function PathSegments(pathname: string): (r: seq<string>)
    ensures forall i :: 0 <= i < |r| ==> r[i] != "" && '/' !in r[i]
  {
    Seqs.Filter(Split(pathname, '/'), (part: string) => |part| > 0)
  }

  /** `extractFunctionName(url)`, with `parsed` the outcome of `new URL(url)` (None when
      the constructor throws). The function name is the last non-empty path segment and
      the base URL is origin plus the remaining segments, ending in "/"; without a
      parse or without segments the URL comes back whole with an empty name. */
  function ExtractFunctionName(url: string, parsed: Option<UrlParts>): (r: FunctionName)
    ensures parsed.None? ==> r == FunctionName(url, "")
    ensures parsed.Some? && PathSegments(parsed.value.pathname) == [] ==> r == FunctionName(url, "")
    ensures parsed.Some? && PathSegments(parsed.value.pathname) != [] ==>
      var segments := PathSegments(parsed.value.pathname);
      && r.functionName == segments[|segments| - 1]
      && r.functionName != "" && '/' !in r.functionName
      && StartsWith(r.baseUrl, parsed.value.protocol + "//" + parsed.value.host + "/")
      && EndsWith(r.baseUrl, "/")
  {
    match parsed
    case None => FunctionName(url, "")
    case Some(u) =>
      var parts := PathSegments(u.pathname);
      if |parts| == 0 then FunctionName(url, "")
      else
        FunctionName(BaseUrl(u.protocol + "//" + u.host, parts[..|parts| - 1]), parts[|parts| - 1])
  }

  /** "/" + the base segments joined with "/" + "/", or a lone "/" when there are none. */
  function BasePath(base: seq<string>): (r: string)
    ensures |r| >= 1 && r[0] == '/' && r[|r| - 1] == '/'
  {
    if |base| > 0 then "/" + Join(base, '/') + "/" else "/"
  }

  /** The origin followed by the base path. */
  function BaseUrl(origin: string, base: seq<string>): (r: string)
    ensures StartsWith(r, origin + "/") && EndsWith(r, "/")
  {
    var r := origin + BasePath(base);
    assert r[..|origin| + 1] == origin + "/";
    r
  }

  /** The base path of all but the last segment, followed by the last segment, is the
      whole path. */
  lemma BasePathThenLast(parts: seq<string>)
    requires |parts| >= 1
    ensures BasePath(parts[..|parts| - 1]) + parts[|parts| - 1] == "/" + Join(parts, '/')
  {
    var n := |parts|;
    var base := parts[..n - 1];
    var last := parts[n - 1];
    if n == 1 {
      assert |base| == 0;
      assert Join(parts, '/') == last;
    } else {
      var joined := Join(base, '/');
      JoinLast(parts, '/');
      assert Join(parts, '/') == joined + "/" + last;
      ConcatAssoc("/" + joined, "/", last);
      ConcatAssoc("/", joined, "/" + last);
      ConcatAssoc(joined, "/", last);
    }
  }

  /** A join of at least two pieces ends with the separator and the last piece. */
  lemma {:induction false} JoinLast(parts: seq<string>, sep: char)
    requires |parts| >= 2
    ensures Join(parts, sep) == Join(parts[..|parts| - 1], sep) + [sep] + parts[|parts| - 1]
    decreases |parts|
  {
    if |parts| > 2 {
      JoinLast(parts[1..], sep);
      assert parts[1..][..|parts| - 2] == parts[..|parts| - 1][1..];
    }
  }

  /** The segments of a canonical path "/a/b/c" are "a", "b", "c". */
  lemma SegmentsOfCanonicalPath(parts: seq<string>)
    requires |parts| >= 1
    requires forall i :: 0 <= i < |parts| ==> parts[i] != "" && '/' !in parts[i]
    ensures PathSegments("/" + Join(parts, '/')) == parts
  {
    SplitJoin(parts, '/');
    SplitPrefix("", '/', Join(parts, '/'));
    assert "" + "/" + Join(parts, '/') == "/" + Join(parts, '/');
    Seqs.FilterAll(parts, (part: string) => |part| > 0);
    assert ([""] + parts)[1..] == parts;
  }

  /** `ExtractFunctionName` in terms of the segments of the path. */
  lemma ExtractOfSegments(url: string, u: UrlParts, segments: seq<string>)
    requires PathSegments(u.pathname) == segments && |segments| >= 1
    ensures ExtractFunctionName(url, Some(u))
      == FunctionName(BaseUrl(u.protocol + "//" + u.host, segments[..|segments| - 1]), segments[|segments| - 1])
  {
  }

  /** For a canonical path, base URL and function name put back together are the
      origin followed by the path: nothing is lost or duplicated. */
  lemma ExtractFunctionNameRoundTrip(url: string, u: UrlParts, parts: seq<string>)
    requires |parts| >= 1
    requires forall i :: 0 <= i < |parts| ==> parts[i] != "" && '/' !in parts[i]
    requires u.pathname == "/" + Join(parts, '/')
    ensures ExtractFunctionName(url, Some(u)).functionName == parts[|parts| - 1]
    ensures ExtractFunctionName(url, Some(u)).baseUrl + ExtractFunctionName(url, Some(u)).functionName
         == u.protocol + "//" + u.host + u.pathname
  {
    SegmentsOfCanonicalPath(parts);
    RebuildFromSegments(url, u, parts);
    BasePathThenLast(parts);
  }

  /** Base URL and function name put back together rebuild origin and path, once the
      path is known to consist of the given segments. */
  lemma RebuildFromSegments(url: string, u: UrlParts, parts: seq<string>)
    requires |parts| >= 1 && PathSegments(u.pathname) == parts
    ensures ExtractFunctionName(url, Some(u)).functionName == parts[|parts| - 1]
    ensures ExtractFunctionName(url, Some(u)).baseUrl + ExtractFunctionName(url, Some(u)).functionName
         == u.protocol + "//" + u.host + (BasePath(parts[..|parts| - 1]) + parts[|parts| - 1])
  {
    var origin := u.protocol + "//" + u.host;
    var n := |parts|;
    var path := BasePath(parts[..n - 1]);
    ExtractOfSegments(url, u, parts);
    ConcatAssoc(origin, path, parts[n - 1]);
  }

  lemma ConcatAssoc(a: string, b: string, c: string)
    ensures (a + b) + c == a + (b + c)
  {
  }
}

=== FILE: wrappers.dfy ===
/** The optional-value datatype used for JavaScript's `undefined`/`null`
    and for host results that may be missing. */
module Wrappers {

  datatype Option<+T> = None | Some(value: T) {

    /** Returns the value in Some, or `default` when None (JavaScript's `x || default`
        for an object-valued `x`). */
    function GetOr(default: T): T {
      match this
      case Some(v) => v
      case None => default
    }
  }
}
